=== FILE: README.md ===
# Jam-Jem Chapatti point of sale, front end: a Dafny model

This project models the logic of the restaurant's point-of-sale front end. That front end is a React application whose screens are listed below.

- **Order entry.** The cashier picks a product, counts supplements on it, steps the quantity and sends a priced line to the cart. Drinks are added in one click.
- **Cart.** The cart keeps a running total and submits the order payload. Closing the receipt resets the form.
- **Application shell.** The shell owns the cart list and shows its count in the header. It picks the layout direction from the language and guards the `/app` route on the logged-in user.
- **Order history.** The screen sends a status query and filters by calendar day. It has a case-insensitive search, status badges and status changes. The export builds one row per listed order with an "Articles" cell.
- **Statistics.** The screen has a period filter (`today`, `week`, `month`, `total`, `day`). Its summary counters are orders, revenue, completed, pending and cancelled. It ranks products and supplements by units sold and counts orders per payment method. It also draws a seven-day revenue chart.
- **Settings.** The settings object is edited, saved without its password fields and loaded back over the defaults. The password-change form has its two validation steps and resets its fields after a change succeeds.

Money is an integer in minor units (thousandths of a dinar), as in the code. Anything the screens get from outside is a parameter:

- the clock (`now`, one reading shared by the period filter and the revenue chart);
- the local calendar (`Calendar`: local day number, civil date, local midnight);
- the menu;
- the stored user;
- the server's reply.

JavaScript objects used as counters enumerate their keys in insertion order, so they are modelled as sequences of entries (`Tally.Counter`).

Modules, one per source file or shared concept:

| module | file | models |
|---|---|---|
| `Wrappers` | wrappers.dfy | `Option` |
| `Seqs` | seqs.dfy | `filter` and `reduce` with their algebra (append, permutation, idempotence) |
| `Text` | text.dfy | ASCII `toLowerCase`, `includes`, `join`, integer-to-string with its parser |
| `Tally` | tally.dfy | the `acc[key] = (acc[key] \|\| 0) + n` counter object |
| `Orders` | orders.dfy | cart lines, stored orders, dates, revenue |
| `OrderEntry` | order_entry.dfy | src/components/OrderEntry.jsx |
| `App` | app.dfy | src/App.jsx |
| `Cart` | cart.dfy | src/components/Cart.jsx |
| `Popularity` | popularity.dfy | product ranking and payment split of src/components/Statistics.jsx |
| `Statistics` | statistics.dfy | period filter, counters, revenue chart of src/components/Statistics.jsx |
| `OrderHistory` | order_history.dfy | src/components/OrderHistory.jsx |
| `Settings` | settings.dfy | src/components/Settings.jsx |

Behaviours of the code worth stating up front:

- **No status lifecycle.** Any status can be set from any status (`OrderHistory.AnyStatusReachable`).
- **No total revalidation.** The order sent to the back end carries the sum of the lines' stored totals; nothing recomputes a line's total from its price and supplements (`Cart.PayloadConsistent`).
- **Payment labels.** Each method is labelled `Cash` or `Carte`, so `mobile` is shown as `Carte` (`Popularity.PaymentLabel`).
- **`completed` versus `delivered`.** The statistics counter counts the literal status `completed`. That status is not one of the five the history screen can set, so `delivered` orders are counted nowhere (`OrderHistory.CompletedNeverSet`). The two literals are kept distinct, as in the code.

## Model

| member | source | states |
|---|---|---|
| Tally.Bump | src/components/Statistics.jsx:113 | bumping a key raises that key's count by n and no other; the key set gains the key; keys stay unique; the total grows by n; a new key is appended at the end |
| Tally.BumpInPlace | src/components/Statistics.jsx:113 | bumping a key already present rewrites only its first entry, with the count raised by n; every other entry keeps its position, so the object's enumeration order is unchanged |
| Text.Includes | src/components/OrderHistory.jsx:112-113 | `includes` is true exactly when the needle occurs at some position of the text |
| Text.Lower | src/components/OrderHistory.jsx:112-113 | lower-casing maps each character and keeps the length |
| Text.IntToStringRoundTrip | src/components/OrderHistory.jsx:128 | the decimal text of any integer parses back to that integer |
| Text.JoinLength | src/components/OrderHistory.jsx:131-138 | a joined string is as long as its parts plus one separator between neighbours |
| OrderEntry.FindSupplement | src/components/OrderEntry.jsx:58 | `find` returns a catalogue entry with that id, and returns none exactly when no entry has it |
| OrderEntry.FindSupplementFirst | src/components/OrderEntry.jsx:58 | `find` returns the first catalogue entry with that id, whatever later entries share it |
| OrderEntry.AddSupplement | src/components/OrderEntry.jsx:33-38 | the picked id's count goes up by one, starting from 0; other counts are unchanged; a well-formed counter stays well formed |
| OrderEntry.RemoveSupplement | src/components/OrderEntry.jsx:40-50 | a count above one drops by one; a count of one deletes the key; other counts are unchanged; well-formedness is kept |
| OrderEntry.AddThenRemove | src/components/OrderEntry.jsx:33-50 | adding then removing the same supplement restores the counter exactly, entry order included |
| OrderEntry.CountOfKeys | src/components/OrderEntry.jsx:174-180 | in a well-formed counter an id is present exactly when its shown count is at least 1, and an absent id reads 0 |
| OrderEntry.CalculateItemTotal | src/components/OrderEntry.jsx:52-63 | no product gives 0; otherwise (price + supplement cost) × quantity |
| OrderEntry.ItemTotalLinear | src/components/OrderEntry.jsx:52-63 | the line total scales linearly with the quantity |
| OrderEntry.UnknownPickCostsNothing | src/components/OrderEntry.jsx:58-59 | a pick missing from the catalogue adds nothing to the total |
| OrderEntry.UnknownPickSnoc | src/components/OrderEntry.jsx:68-76 | a selection has an unknown pick exactly when its front has one or its last pick is unknown |
| OrderEntry.ToCartSupplementsDefined | src/components/OrderEntry.jsx:68-76 | the supplements array exists exactly when every pick is in the catalogue, since reading `supplement.name` throws otherwise |
| OrderEntry.ToCartSupplementsPointwise | src/components/OrderEntry.jsx:68-76 | one cart supplement per pick, in order, with its id and count and with the name and price of the catalogue entry `find` gives for the id |
| OrderEntry.ToCartSupplementsCost | src/components/OrderEntry.jsx:52-76 | the cart supplements cost exactly what the preview charged for the picks |
| OrderEntry.ToCartSupplementsContents | src/components/OrderEntry.jsx:68-76 | one cart supplement per pick, in order, with its id and count and the catalogue's name and price, costing what the preview charged |
| OrderEntry.ToCartSupplementsFacts | src/components/OrderEntry.jsx:68-76 | both facts above together |
| OrderEntry.HandleAddToCart | src/components/OrderEntry.jsx:65-93 | a line is added exactly when a product is selected and every pick is known; the line carries the product, quantity, one supplement per pick (its id and count, with the catalogue's name and price) and the previewed total and obeys the pricing rule; the screen then resets, and stays unchanged when nothing is added |
| OrderEntry.DrinkLine | src/components/OrderEntry.jsx:202-211 | a drink line has one unit, no supplements and the drink's price as total, which satisfies the pricing rule |
| OrderEntry.Decrement | src/components/OrderEntry.jsx:236 | the minus button subtracts one from 2 upwards and gives 1 from 1 downwards |
| OrderEntry.Apply | src/components/OrderEntry.jsx:135-243 | selecting a product clears the supplements and keeps the quantity; plus adds one; minus subtracts one from 2 upwards, gives 1 from 1 downwards, and touches nothing else |
| OrderEntry.ApplyKeepsValid | src/components/OrderEntry.jsx:135-138 | every single action keeps quantity ≥ 1 and a well-formed counter |
| OrderEntry.RunKeepsValid | src/components/OrderEntry.jsx:236-250 | any sequence of clicks keeps quantity ≥ 1 and every supplement count ≥ 1 |
| App.AddToCart | src/App.jsx:31 | the item is appended and the earlier lines are untouched |
| App.KeepOtherIndicesSpec | src/App.jsx:32 | the index filter removes exactly the element at that index, or nothing when the index is out of range |
| App.RemoveFromCart | src/App.jsx:32 | removing index i gives the cart without its i-th line; an out-of-range index changes nothing |
| App.HeaderCountTracksEdits | src/App.jsx:57 | the header count goes up by one on add, down by one on removing an existing line, and to 0 on clear |
| App.Direction | src/App.jsx:43 | the layout is right-to-left exactly for Arabic |
| App.Route | src/App.jsx:140-142 | the main screen renders exactly on `/app` with a user; `/login` always renders login; redirects target `/app` or `/login` by login state |
| App.RedirectSettles | src/App.jsx:140-142 | one redirect always lands on a rendered screen, the main one exactly when logged in |
| Cart.PaymentMethod.Code | src/components/Cart.jsx:127-129 | the method sent is one of `cash`, `card`, `mobile` |
| Cart.CodeInjective | src/components/Cart.jsx:127-129 | distinct methods send distinct strings |
| Cart.CalculateTotal | src/components/Cart.jsx:17-19 | an empty cart totals 0 |
| Cart.TotalTracksEdits | src/components/Cart.jsx:17-19 | the total rises by an added line's total, falls by a removed line's total, and is 0 after clearing |
| Cart.SubmitOrder | src/components/Cart.jsx:25-41 | nothing is sent for an empty cart; otherwise one item per line in order, supplements projected to name, quantity and price, the cart total, and the form's name, method and notes |
| Cart.ToOrderSupplements | src/components/Cart.jsx:31-35 | each supplement is projected, in order, to its name, quantity and price |
| Cart.ToOrderItems | src/components/Cart.jsx:29-36 | each cart line is projected, in order, to the order item with its supplements projected |
| Cart.ToOrderItemsTotal | src/components/Cart.jsx:29-37 | the payload items' totals sum to the cart total |
| Cart.ProjectionKeepsCost | src/components/Cart.jsx:31-35 | dropping supplement ids keeps the supplement cost |
| Cart.ToOrderItemPriced | src/components/Cart.jsx:29-36 | a line priced by the pricing rule is still priced by it once projected |
| Cart.PayloadConsistent | src/components/Cart.jsx:28-41 | the submitted total equals the sum of its items' totals, and correctly priced lines stay correctly priced |
| Cart.CloseReceipt | src/components/Cart.jsx:59-65 | closing empties the cart and clears name, notes and current order, and keeps the payment method |
| Cart.CashByDefault | src/components/Cart.jsx:11 | a fresh form sends `cash`, and closing a receipt keeps the chosen method |
| Cart.NoResubmitAfterClose | src/components/Cart.jsx:25-26 | after closing the receipt nothing can be submitted until a line is added |
| Popularity.CountSupplementsFacts | src/components/Statistics.jsx:115-120 | each tagged supplement key is credited (quantity, with 0 counted as 1) × item quantity; keys stay unique |
| Popularity.CountItemFacts | src/components/Statistics.jsx:112-121 | an item credits its quantity to its name plus its supplements' units |
| Popularity.CountItemsFacts | src/components/Statistics.jsx:112-121 | a list of items credits every key with the sum of its units |
| Popularity.CountOrdersFacts | src/components/Statistics.jsx:109-122 | after the loops every key holds exactly its units sold over the orders; the key set is every name and tagged supplement seen; keys are unique |
| Popularity.Insert | src/components/Statistics.jsx:126 | inserting adds exactly that entry (multiset) |
| Popularity.SortByCount | src/components/Statistics.jsx:126 | the sort is a permutation of its input |
| Popularity.InsertSorted | src/components/Statistics.jsx:126 | insertion keeps descending count order |
| Popularity.InsertWithCount | src/components/Statistics.jsx:126 | insertion places the entry ahead of every existing entry of equal count; since the entry inserted precedes the ones already sorted, equal counts keep their input order |
| Popularity.InsertKeys | src/components/Statistics.jsx:126 | insertion adds the entry's key and keeps keys unique |
| Popularity.SortFacts | src/components/Statistics.jsx:124-126 | the sorted list is in descending count order, entries of equal count keep their relative order, and the key set and its uniqueness are preserved |
| Popularity.CalculateProducts | src/components/Statistics.jsx:108-129 | the ranking is in descending order with unique keys and is not truncated: exactly the names and tagged supplements seen, each with its units sold, ties in first-seen order |
| Popularity.CountPaymentsFacts | src/components/Statistics.jsx:132-135 | each method's count is its number of orders; the keys are the methods seen; the counts sum to the number of orders |
| Popularity.PaymentLabel | src/components/Statistics.jsx:139 | only `cash` is labelled `Cash`; every other method, `card` and `mobile` alike, is labelled `Carte` |
| Popularity.ToSlices | src/components/Statistics.jsx:138-141 | one slice per counter entry, in order, labelled, with its count |
| Popularity.ToSlicesTotal | src/components/Statistics.jsx:138-141 | slices sum to the counter's total |
| Popularity.CalculatePayments | src/components/Statistics.jsx:131-143 | one slice per distinct method, each holding that method's order count, summing to the number of orders |
| Popularity.PaymentKeys | src/components/Statistics.jsx:132-135 | the slices are built from exactly the distinct methods, each once |
| Statistics.ApplyPeriodFilter | src/components/Statistics.jsx:60-90 | `total` keeps everything; `day` with a date keeps exactly the orders on that local date; `today`, `week` and `month` keep exactly the orders at or after local midnight, now − 604800000 ms, or the first of the month; `day` without a date compares with 0 |
| Statistics.PeriodFilterIdempotent | src/components/Statistics.jsx:60-90 | filtering an already filtered list by the same period changes nothing |
| Statistics.PeriodFilterAppend | src/components/Statistics.jsx:60-90 | the filter of a concatenation is the concatenation of the filters |
| Statistics.PickDate | src/components/Statistics.jsx:282-291 | choosing a date selects `day`, clearing it selects `today` |
| Statistics.PickDateHasDate | src/components/Statistics.jsx:282-291 | the first date input (the one that also sets the period) never leaves the period at `day` without a date |
| Statistics.CalculateStats | src/components/Statistics.jsx:98-106 | the order count is the list length; the three status counters add up to at most it; an empty list gives all zeros |
| Statistics.StatusCountsBounded | src/components/Statistics.jsx:102-104 | `completed`, `pending` and `cancelled` are disjoint, so their counts sum to at most the order count |
| Statistics.StatsAppend | src/components/Statistics.jsx:98-106 | one more order adds 1 to the count, its total to the revenue, and 1 to exactly the counter named by its status, so `preparing`, `ready` and `delivered` reach none |
| Statistics.StatusCountSnoc | src/components/Statistics.jsx:102-104 | one more order raises a status count exactly when it has that status |
| Statistics.RevenueSnoc | src/components/Statistics.jsx:101 | one more order adds its total to the revenue |
| Statistics.StatsPermutation | src/components/Statistics.jsx:98-106 | the counters do not depend on the order the orders were listed in |
| Statistics.Window | src/components/Statistics.jsx:148-150 | the window has seven days and ends today |
| Statistics.RevenueOnSnoc | src/components/Statistics.jsx:154-163 | one more order adds its total to its own day's revenue only |
| Statistics.DayTotal | src/components/Statistics.jsx:154-163 | one bar's loop computes that day's revenue |
| Statistics.Bars | src/components/Statistics.jsx:148-166 | the loop builds seven bars, from six days back to today |
| Statistics.BarsFacts | src/components/Statistics.jsx:145-169 | bar k is for window day k, the last one today, each with that day's revenue, all zero without orders |
| Statistics.CalculateRevenueChart | src/components/Statistics.jsx:145-169 | always seven bars, oldest first, ending today, whatever the period; each holds the revenue of the filtered orders on that day; no orders gives seven zeros |
| Statistics.BucketsSumSnoc | src/components/Statistics.jsx:154-163 | one more order adds its share to the day-by-day sum |
| Statistics.ShareOnce | src/components/Statistics.jsx:154-163 | over distinct days an order counts once, in its own day's bar when that day is shown, and nowhere otherwise |
| Statistics.BucketsSumIsWindowRevenue | src/components/Statistics.jsx:148-166 | the per-day sums over distinct days equal the revenue of the orders dated on one of those days |
| Statistics.BucketsSumZero | src/components/Statistics.jsx:154-163 | no orders give a zero sum |
| Statistics.ChartTotalIsBucketsSum | src/components/Statistics.jsx:148-166 | the bars add up to the day-by-day sum |
| Statistics.ChartTotalIsWindowRevenue | src/components/Statistics.jsx:145-169 | with distinct window days, the bars add up to the revenue of the filtered orders inside the window |
| Statistics.TodayBarMatchesRevenue | src/components/Statistics.jsx:101 | when every filtered order is dated today, today's bar equals the revenue card |
| Statistics.WindowRevenueAtMostRevenue | src/components/Statistics.jsx:101 | with non-negative totals, the revenue of any selection is at most the whole revenue |
| Statistics.ChartAtMostRevenue | src/components/Statistics.jsx:98-169 | with non-negative totals and distinct window days, the bars never add up to more than the revenue card |
| Statistics.Refresh | src/components/Statistics.jsx:60-96 | the four calculations run on the same filtered list, so the payment slices sum to the order counter |
| OrderHistory.StatusQuery | src/components/OrderHistory.jsx:21 | the status parameter is absent exactly for `all`, and is otherwise the chosen status |
| OrderHistory.EveryStatusIsQueried | src/components/OrderHistory.jsx:21 | each of the five statuses is sent as itself |
| OrderHistory.DayFilter | src/components/OrderHistory.jsx:24-37 | without a date every order is kept; with one, exactly the orders on the same local date |
| OrderHistory.DayFilterAgreesWithStatistics | src/components/OrderHistory.jsx:26-37 | the history day filter and the statistics `day` period give the same list |
| OrderHistory.MatchesSearch | src/components/OrderHistory.jsx:110-115 | an order matches when its lower-cased number contains the lower-cased term, or it has a customer name whose lower-cased form does |
| OrderHistory.SearchFilter | src/components/OrderHistory.jsx:110-115 | exactly the matching orders are kept |
| OrderHistory.SearchFilterAppend | src/components/OrderHistory.jsx:110-115 | the search distributes over concatenation, so the matching orders keep the order in which they were fetched |
| OrderHistory.EmptySearchKeepsAll | src/components/OrderHistory.jsx:110-115 | an empty search shows every order |
| OrderHistory.SearchIgnoresCase | src/components/OrderHistory.jsx:112-113 | lower-casing the term does not change the result |
| OrderHistory.FoundByOwnNumber | src/components/OrderHistory.jsx:112 | every order is found by its own number |
| OrderHistory.StatusBadge | src/components/OrderHistory.jsx:68-84 | a badge is defined exactly for the five statuses |
| OrderHistory.BadgesDistinguishStatuses | src/components/OrderHistory.jsx:68-84 | different statuses get different labels and colours |
| OrderHistory.CompletedNeverSet | src/components/OrderHistory.jsx:291-300 | if every status comes from the history screen's selects, the statistics `completed` counter is 0 |
| OrderHistory.ApplyStatus | src/components/OrderHistory.jsx:99-108 | the back end's stored list after `updateOrder`: the updated order takes the new status and every other order is unchanged (the screen's list is that list fetched again) |
| OrderHistory.AnyStatusReachable | src/components/OrderHistory.jsx:291-300 | any status is one update away from any other, terminal ones included, and the other fields are kept |
| OrderHistory.ApplyStatusIdempotent | src/components/OrderHistory.jsx:99-108 | re-sending an update changes nothing more |
| OrderHistory.SupplementTexts | src/components/OrderHistory.jsx:131-132 | one `name xq` text per supplement, in order |
| OrderHistory.ItemText | src/components/OrderHistory.jsx:127-136 | an item without a supplements field has no text (the code throws); otherwise the text is `{q}x {name}`, followed by ` (` + the supplement texts joined with `, ` + `)` when there are supplements |
| OrderHistory.ItemTextReadsBack | src/components/OrderHistory.jsx:127-136 | an item's text starts with its quantity, which parses back and is ended by the first `x`; without supplements the text is exactly `{q}x {name}` |
| OrderHistory.ItemTexts | src/components/OrderHistory.jsx:125-137 | the texts exist exactly when every item has a supplements list, one text per item |
| OrderHistory.Articles | src/components/OrderHistory.jsx:125-138 | the Articles cell exists exactly when every item has a supplements field, and is then the item texts joined with ` \| ` |
| OrderHistory.ArticlesLength | src/components/OrderHistory.jsx:125-138 | the Articles cell is the item texts plus one ` \| ` between neighbours |
| OrderHistory.ExportRows | src/components/OrderHistory.jsx:118-139 | one row per order, in order, with number, client (`-` when empty), status, payment, total and articles; none when an item lacks supplements |
| OrderHistory.Export | src/components/OrderHistory.jsx:117-144 | the export fails exactly when an item lacks supplements, reports nothing to export exactly for an empty list, and otherwise writes one row per order, in order, row i being the row of order i (number, client or `-`, status, payment, total, articles) |
| OrderHistory.ExportOfPlacedOrders | src/components/OrderHistory.jsx:117-144 | orders placed from the cart always export, one row each |
| Settings.HandleChange | src/components/Settings.jsx:24-26 | only the edited field changes |
| Settings.SettingsToSave | src/components/Settings.jsx:28-32 | the saved object is the settings without the three password fields |
| Settings.Load | src/components/Settings.jsx:16-22 | with nothing saved the defaults stand; otherwise saved fields override the defaults and the other defaults remain |
| Settings.SaveLoadRoundTrip | src/components/Settings.jsx:16-32 | saving then loading restores every non-password field and leaves the passwords empty |
| Settings.HandlePasswordChange | src/components/Settings.jsx:37-67 | an empty field stops the form first, then a mismatch stops it; the change succeeds exactly with valid fields, a stored user and an accepted reply; the request carries the email and the two passwords; only success clears the password fields |
| Settings.NoResendAfterChange | src/components/Settings.jsx:37-63 | after a successful change the next attempt stops at the empty-field check, and the saved settings are untouched |
| Settings.ShownMessage | src/components/Settings.jsx:38-65 | the message shown in each case; the server's message wins over the default `Erreur serveur` |

## Left out

- Network calls (`getMenu`, `getOrders`, `createOrder`, `updateOrder`, `deleteOrder`, the change-password post): their results are parameters. src/services/api.js is not part of this model, and neither is the back end's status filtering.
- Order deletion and its confirmation dialog: after the list is fetched again it is a plain server-side removal.
- Receipt, Login, MainApp and the styling configuration: presentation and login are not part of the modelled core.
- Rendering, React effect scheduling, loading and error flags, `alert`, `confirm`, and the message cleared after three seconds: these are user-interface timing, not logic.
- The `orders.length > 0` guard of the statistics effect: it only decides whether a refresh runs.
- The settings save message and the language selector's storage: only the language's effect on direction is modelled.
- Statistics.CalculateRevenueChart: the code reads the clock again for every bar (src/components/Statistics.jsx:149), after the period filter has read it once; one `now` serves the filter and all seven bars, so a refresh that straddles local midnight is not modelled. Statistics.Refresh and Statistics.TodayBarMatchesRevenue rely on that single reading.
- Statistics.CalculateRevenueChart: the bar labels (`toLocaleDateString`) and the division by 1000 are left out, so revenues stay in minor units. Floating point and locale formatting are not modelled.
- OrderHistory.ExportRows: the date column and the `toFixed(3)` total are left out, and the total stays in minor units. Writing the spreadsheet file (XLSX) is I/O.
- Statistics.ApplyPeriodFilter: the selected date is given as the instant `new Date(selectedDate)` yields. Parsing the date string and the time-zone rules behind the local calendar are abstract (`Calendar`).
- Text.Lower: only ASCII letters are lower-cased. Unicode case mapping is not modelled.
- Popularity.SupplementUnits: `s.quantity || 1` is modelled for a zero quantity. A missing quantity is not representable because quantities are integers.
- OrderHistory.MatchesSearch: an absent customer name is the empty string. Both are falsy in the code.
- Settings.Load: stored values are the parsed object. The `JSON.parse` of local storage and a stored empty string (falsy, so treated as nothing saved) are represented by `None`.
- Supplement ids are strings. The code stores selections under `[supplement.id]`, which turns the id into a string, and then looks it up with `===` (src/components/OrderEntry.jsx:36, 58, 69); a menu with numeric ids would never match, and that case is not modelled.
- Statistics.PickDateHasDate: only the first date input sets the period; the second one (src/components/Statistics.jsx:332-337) only sets the date and is not modelled.
- OrderHistory.ApplyStatus: the refetch after an update is not a separate member; the list shown is the back end's answer to the status query, passed through `OrderHistory.DayFilter`.
- Orders always carry an `items` array. The code would throw on an order without one (`order.items.forEach` in src/components/Statistics.jsx:111, `order.items.map` in src/components/OrderHistory.jsx:125); only a missing `supplements` field of an item is modelled, as `None`.
- Object key ordering for integer-like keys (which JavaScript enumerates first) is not modelled: counter keys are enumerated in insertion order.
- The average basket (revenue divided by the order count, shown with decimals): floating point.
- The statistics export and the period labels (`getPeriodLabel`): these are formatting and file output.

=== FILE: app.dfy ===
/** The application shell: the cart list it owns and edits on behalf of the
    order-entry and cart screens, the header's item count, the layout
    direction chosen from the language, and the route guard on the logged-in
    user. */
module App {
  import opened Orders

  // ---------------------------------------------------------------------
  // The cart list
  // ---------------------------------------------------------------------

  /** `addToCart`: `[...cart, item]`. */
  function AddToCart(cart: seq<CartItem>, item: CartItem): (r: seq<CartItem>)
    ensures |r| == |cart| + 1
    ensures r[..|cart|] == cart && r[|cart|] == item
  {
    cart + [item]
  }

  /** `cart.filter((_, i) => i !== index)`, walked with the index `offset`
      of the first element of `cart`. */
  function KeepOtherIndices(cart: seq<CartItem>, index: int, offset: int): seq<CartItem>
  {
    if |cart| == 0 then []
    else (if offset == index then [] else [cart[0]]) + KeepOtherIndices(cart[1..], index, offset + 1)
  }

  /** The index filter removes exactly the element at `index - offset` when
      there is one, and nothing otherwise. */
  lemma {:induction false} KeepOtherIndicesSpec(cart: seq<CartItem>, index: int, offset: int)
    ensures offset <= index < offset + |cart| ==>
      KeepOtherIndices(cart, index, offset) == cart[..index - offset] + cart[index - offset + 1..]
    ensures !(offset <= index < offset + |cart|) ==> KeepOtherIndices(cart, index, offset) == cart
  {
    if |cart| > 0 {
      KeepOtherIndicesSpec(cart[1..], index, offset + 1);
      if offset == index {
        assert cart[..0] + cart[1..] == cart[1..];
      } else if offset < index < offset + |cart| {
        assert [cart[0]] + (cart[1..][..index - offset - 1] + cart[1..][index - offset..])
            == cart[..index - offset] + cart[index - offset + 1..];
      } else {
        assert [cart[0]] + cart[1..] == cart;
      }
    }
  }

  /** `removeFromCart(index)`: the line at `index` goes, the others keep
      their order; an index outside the cart changes nothing. */
  function RemoveFromCart(cart: seq<CartItem>, index: int): (r: seq<CartItem>)
    ensures 0 <= index < |cart| ==> r == cart[..index] + cart[index + 1..]
    ensures !(0 <= index < |cart|) ==> r == cart
  {
    KeepOtherIndicesSpec(cart, index, 0);
    KeepOtherIndices(cart, index, 0)
  }

  /** `clearCart`. */
  function ClearCart(): seq<CartItem>
  {
    []
  }

  /** The number shown in the header's cart badge. */
  function HeaderCount(cart: seq<CartItem>): nat
  {
    |cart|
  }

  /** The header count follows every cart edit: one more after an add, one
      fewer after removing an existing line, zero after clearing. */
  lemma {:induction false} HeaderCountTracksEdits(cart: seq<CartItem>, item: CartItem, index: int)
    ensures HeaderCount(AddToCart(cart, item)) == HeaderCount(cart) + 1
    ensures 0 <= index < |cart| ==> HeaderCount(RemoveFromCart(cart, index)) == HeaderCount(cart) - 1
    ensures !(0 <= index < |cart|) ==> HeaderCount(RemoveFromCart(cart, index)) == HeaderCount(cart)
    ensures HeaderCount(ClearCart()) == 0
  {
  }

  // ---------------------------------------------------------------------
  // Layout direction
  // ---------------------------------------------------------------------

  /** The `dir` attribute of the application: right-to-left for Arabic. */
  function Direction(language: string): (r: string)
    ensures r == "rtl" <==> language == "ar"
    ensures r == "rtl" || r == "ltr"
  {
    if language == "ar" then "rtl" else "ltr"
  }

  // ---------------------------------------------------------------------
  // Routing
  // ---------------------------------------------------------------------

  /** The router's three routes, after it has matched the location. */
  datatype Path = LoginPath | AppPath | OtherPath

  datatype Screen = LoginScreen | MainScreen

  datatype RouteResult = Render(screen: Screen) | Redirect(target: Path)

  /** What the router shows for a path, given whether a user is logged in. */
  function Route(path: Path, loggedIn: bool): (r: RouteResult)
    ensures r == Render(MainScreen) <==> path == AppPath && loggedIn
    ensures r == Render(LoginScreen) <==> path == LoginPath
    ensures r.Redirect? ==> r.target == (if loggedIn then AppPath else LoginPath)
  {
    match path
    case LoginPath => Render(LoginScreen)
    case AppPath => if loggedIn then Render(MainScreen) else Redirect(LoginPath)
    case OtherPath => Redirect(if loggedIn then AppPath else LoginPath)
  }

  /** Redirects never chain: following one redirect always reaches a
      rendered screen, the main screen exactly when a user is logged in. */
  lemma {:induction false} RedirectSettles(path: Path, loggedIn: bool)
    requires Route(path, loggedIn).Redirect?
    ensures Route(Route(path, loggedIn).target, loggedIn) == Render(if loggedIn then MainScreen else LoginScreen)
  {
  }
}

=== FILE: cart.dfy ===
/** The cart screen: its running total, the order payload it submits, and the
    form reset when the receipt is closed. */
module Cart {
  import opened Wrappers
  import opened Orders
  import Seqs
  import App

  /** The three options of the payment `<select>`. */
  datatype PaymentMethod = Cash | Card | Mobile {

    /** The option's value, the string sent to the back end. */
    function Code(): (r: string)
      ensures r in {"cash", "card", "mobile"}
    {
      match this
      case Cash => "cash"
      case Card => "card"
      case Mobile => "mobile"
    }
  }

  /** Distinct methods are sent as distinct strings. */
  lemma {:induction false} CodeInjective(a: PaymentMethod, b: PaymentMethod)
    requires a.Code() == b.Code()
    ensures a == b
  {
  }

  /** `calculateTotal`: the sum of the lines' stored totals. */
  function CalculateTotal(cart: seq<CartItem>): (r: int)
    ensures |cart| == 0 ==> r == 0
  {
    Seqs.SumOf(cart, ItemTotalOf)
  }

  /** The total follows the cart edits: adding a line adds its total,
      removing line `i` subtracts that line's total, clearing gives 0. */
  lemma {:induction false} TotalTracksEdits(cart: seq<CartItem>, item: CartItem, i: int)
    ensures CalculateTotal(App.AddToCart(cart, item)) == CalculateTotal(cart) + item.itemTotal
    ensures 0 <= i < |cart| ==>
      CalculateTotal(App.RemoveFromCart(cart, i)) == CalculateTotal(cart) - cart[i].itemTotal
    ensures CalculateTotal(App.ClearCart()) == 0
  {
    Seqs.SumOfAppend(cart, [item], ItemTotalOf);
    assert [item][..0] == [];
    if 0 <= i < |cart| {
      assert cart == cart[..i] + ([cart[i]] + cart[i + 1..]);
      Seqs.SumOfAppend(cart[..i], [cart[i]] + cart[i + 1..], ItemTotalOf);
      Seqs.SumOfCons(cart[i], cart[i + 1..], ItemTotalOf);
      Seqs.SumOfAppend(cart[..i], cart[i + 1..], ItemTotalOf);
    }
  }

  // ---------------------------------------------------------------------
  // The submitted payload
  // ---------------------------------------------------------------------

  /** The body `handleSubmitOrder` posts. */
  datatype OrderPayload = OrderPayload(
    items: seq<OrderItem>,
    totalAmount: int,
    customerName: string,
    paymentMethod: string,
    notes: string)

  /** `{ name: s.name, quantity: s.quantity, price: s.price }`: the id is
      dropped. */
  function ToOrderSupplement(s: CartSupplement): OrderSupplement
  {
    OrderSupplement(s.name, s.quantity, s.price)
  }

  function ToOrderSupplements(sups: seq<CartSupplement>): (r: seq<OrderSupplement>)
    ensures |r| == |sups|
    ensures forall i :: 0 <= i < |sups| ==> r[i] == ToOrderSupplement(sups[i])
  {
    if |sups| == 0 then [] else ToOrderSupplements(sups[..|sups| - 1]) + [ToOrderSupplement(sups[|sups| - 1])]
  }

  /** `{ ...item, supplements: <projected> }`. */
  function ToOrderItem(item: CartItem): OrderItem
  {
    OrderItem(item.productId, item.name, item.quantity, item.price,
              Some(ToOrderSupplements(item.supplements)), item.itemTotal)
  }

  function ToOrderItems(cart: seq<CartItem>): (r: seq<OrderItem>)
    ensures |r| == |cart|
    ensures forall i :: 0 <= i < |cart| ==> r[i] == ToOrderItem(cart[i])
  {
    if |cart| == 0 then [] else [ToOrderItem(cart[0])] + ToOrderItems(cart[1..])
  }

  /** The cart screen's form. */
  datatype CartForm = CartForm(
    customerName: string,
    paymentMethod: PaymentMethod,
    notes: string,
    currentOrder: Option<Order>,
    showReceipt: bool)

  /** The form on mount: cash is preselected. */
  const InitialForm := CartForm("", Cash, "", None, false)

  /** A fresh form sends `cash` unless the cashier picks another method, and
      closing a receipt never changes the pick. */
  lemma {:induction false} CashByDefault(cart: seq<CartItem>, form: CartForm)
    ensures InitialForm.paymentMethod.Code() == "cash"
    ensures CloseReceipt(cart, form).1.paymentMethod.Code() == form.paymentMethod.Code()
  {
  }

  /** `handleSubmitOrder` up to the request: nothing is sent for an empty
      cart; otherwise the payload carries one item per line in cart order
      with its supplements projected, the cart total, and the form's fields
      unchanged. */
  function SubmitOrder(cart: seq<CartItem>, form: CartForm): (r: Option<OrderPayload>)
    ensures r.None? <==> |cart| == 0
    ensures r.Some? ==>
      && |r.value.items| == |cart|
      && (forall i :: 0 <= i < |cart| ==>
            var it := r.value.items[i];
            && it.productId == cart[i].productId && it.name == cart[i].name
            && it.quantity == cart[i].quantity && it.price == cart[i].price
            && it.itemTotal == cart[i].itemTotal
            && it.supplements.Some?
            && |it.supplements.value| == |cart[i].supplements|
            && (forall j :: 0 <= j < |cart[i].supplements| ==>
                  it.supplements.value[j] ==
                    OrderSupplement(cart[i].supplements[j].name, cart[i].supplements[j].quantity,
                                    cart[i].supplements[j].price)))
      && r.value.totalAmount == CalculateTotal(cart)
      && r.value.customerName == form.customerName
      && r.value.paymentMethod == form.paymentMethod.Code()
      && r.value.notes == form.notes
  {
    if |cart| == 0 then None
    else Some(OrderPayload(ToOrderItems(cart), CalculateTotal(cart), form.customerName,
                           form.paymentMethod.Code(), form.notes))
  }

  function OrderItemTotalOf(it: OrderItem): int { it.itemTotal }

  lemma {:induction false} ToOrderItemsTotal(cart: seq<CartItem>)
    ensures Seqs.SumOf(ToOrderItems(cart), OrderItemTotalOf) == CalculateTotal(cart)
  {
    Seqs.SumOfPointwise(ToOrderItems(cart), OrderItemTotalOf, cart, ItemTotalOf);
  }

  lemma {:induction false} ProjectionKeepsCost(sups: seq<CartSupplement>)
    ensures Seqs.SumOf(ToOrderSupplements(sups), OrderSupplementCost) == SupplementsCost(sups)
  {
    if |sups| > 0 {
      ProjectionKeepsCost(sups[..|sups| - 1]);
      var r := ToOrderSupplements(sups);
      assert r[..|r| - 1] == ToOrderSupplements(sups[..|sups| - 1]);
    }
  }

  /** Dropping the supplement ids keeps a line priced by the line rule. */
  lemma {:induction false} ToOrderItemPriced(item: CartItem)
    requires PricedCorrectly(item)
    ensures ItemPricedCorrectly(ToOrderItem(item))
  {
    ProjectionKeepsCost(item.supplements);
  }

  /** A submitted order satisfies the order invariant: its total is the sum
      of its items' totals, and every item priced by the line rule in the
      cart is still priced by it after the supplement ids are dropped. */
  lemma {:induction false} PayloadConsistent(cart: seq<CartItem>, form: CartForm)
    requires |cart| > 0
    ensures var p := SubmitOrder(cart, form).value;
      && p.totalAmount == Seqs.SumOf(p.items, OrderItemTotalOf)
      && forall i :: 0 <= i < |cart| && PricedCorrectly(cart[i]) ==> ItemPricedCorrectly(p.items[i])
  {
    var items := ToOrderItems(cart);
    assert SubmitOrder(cart, form).value.items == items;
    ToOrderItemsTotal(cart);
    forall i | 0 <= i < |cart| && PricedCorrectly(cart[i])
      ensures ItemPricedCorrectly(items[i])
    {
      ToOrderItemPriced(cart[i]);
    }
  }

  // ---------------------------------------------------------------------
  // Closing the receipt
  // ---------------------------------------------------------------------

  /** `handleCloseReceipt`: the cart is emptied and the customer name, notes
      and created order are cleared; the payment method is kept for the
      next order. */
  function CloseReceipt(cart: seq<CartItem>, form: CartForm): (r: (seq<CartItem>, CartForm))
    ensures r.0 == []
    ensures r.1 == CartForm("", form.paymentMethod, "", None, false)
  {
    (App.ClearCart(), form.(showReceipt := false, customerName := "", notes := "", currentOrder := None))
  }

  /** Once the receipt is closed, submitting again sends nothing until a line
      is added. */
  lemma {:induction false} NoResubmitAfterClose(cart: seq<CartItem>, form: CartForm)
    ensures var (c, f) := CloseReceipt(cart, form); SubmitOrder(c, f).None?
  {
  }
}

=== FILE: order_entry.dfy ===
/** The order-entry screen: choosing a product, counting supplements on it,
    stepping the quantity, pricing the line and handing it to the cart, plus
    the one-click drink lines.

    The screen's state is the selected product, the quantity and the
    `selectedSupplements` object. That object is a JavaScript object keyed by
    catalogue id, so its entries are enumerated in insertion order; it is
    modelled as a sequence of picks with distinct ids. */
module OrderEntry {
  import opened Wrappers
  import opened Orders
  import Tally

  // ---------------------------------------------------------------------
  // Menu catalogue (read-only reference data fetched by the caller)
  // ---------------------------------------------------------------------

  datatype Product = Product(id: string, name: string, price: int, description: string)

  datatype CatalogSupplement = CatalogSupplement(id: string, name: string, price: int)

  datatype Drink = Drink(id: string, name: string, price: int)

  datatype Menu = Menu(products: seq<Product>, supplements: seq<CatalogSupplement>, drinks: seq<Drink>)

  /** `menu.supplements.find((s) => s.id === id)`: the first catalogue entry
      with that id, if any. */
  function FindSupplement(catalog: seq<CatalogSupplement>, id: string): (r: Option<CatalogSupplement>)
    ensures r.Some? ==> r.value in catalog && r.value.id == id
    ensures r.None? <==> forall i :: 0 <= i < |catalog| ==> catalog[i].id != id
  {
    if |catalog| == 0 then None
    else if catalog[0].id == id then Some(catalog[0])
    else FindSupplement(catalog[1..], id)
  }

  /** `find` answers with the first entry carrying the id: when entry `j` has
      it and no earlier entry does, the answer is entry `j`, whatever later
      entries share the id. */
  lemma {:induction false} FindSupplementFirst(catalog: seq<CatalogSupplement>, id: string, j: int)
    requires 0 <= j < |catalog| && catalog[j].id == id
    requires forall i :: 0 <= i < j ==> catalog[i].id != id
    ensures FindSupplement(catalog, id) == Some(catalog[j])
  {
    if j > 0 {
      FindSupplementFirst(catalog[1..], id, j - 1);
    }
  }

  // ---------------------------------------------------------------------
  // The supplement counter
  // ---------------------------------------------------------------------

  /** `selectedSupplements`: catalogue id to count, in insertion order. */
  type Selection = Tally.Counter

  /** What every reachable counter satisfies: no id twice and every count at
      least 1. */
  predicate WellFormed(sel: Selection)
  {
    Tally.UniqueKeys(sel) && forall i :: 0 <= i < |sel| ==> sel[i].count >= 1
  }

  /** `selectedSupplements[id] || 0`. */
  function CountOf(sel: Selection, id: string): int
  {
    Tally.Get(sel, id)
  }

  /** In a well-formed counter an id is a key exactly when its count is
      positive. */
  lemma {:induction false} CountOfKeys(sel: Selection, id: string)
    requires WellFormed(sel)
    ensures id in Tally.Keys(sel) <==> CountOf(sel, id) >= 1
    ensures id !in Tally.Keys(sel) ==> CountOf(sel, id) == 0
  {
    Tally.KeysMembers(sel, id);
    if id in Tally.Keys(sel) {
      var i :| 0 <= i < |sel| && sel[i].key == id;
      Tally.GetOfMember(sel, sel[i]);
    } else {
      Tally.GetAbsent(sel, id);
    }
  }

  /** `addSupplement`: the id's count goes up by one, starting from 0 when the
      id is absent (a new id is appended, an existing one keeps its place);
      every other id keeps its count. */
  function AddSupplement(sel: Selection, id: string): (r: Selection)
    ensures CountOf(r, id) == CountOf(sel, id) + 1
    ensures forall k :: k != id ==> CountOf(r, k) == CountOf(sel, k)
    ensures Tally.Keys(r) == Tally.Keys(sel) + {id}
    ensures WellFormed(sel) ==> WellFormed(r)
  {
    var r := Tally.Bump(sel, id, 1);
    assert WellFormed(sel) ==> WellFormed(r) by {
      if WellFormed(sel) {
        CountOfKeys(sel, id);
        forall i | 0 <= i < |r| ensures r[i].count >= 1 {
          if r[i].key == id {
            Tally.GetOfMember(r, r[i]);
          }
        }
      }
    }
    r
  }

  /** `removeSupplement`: a count above 1 is decremented, otherwise the key
      is deleted; every other id keeps its count. */
  function RemoveSupplement(sel: Selection, id: string): (r: Selection)
    ensures CountOf(sel, id) > 1 ==> CountOf(r, id) == CountOf(sel, id) - 1
    ensures WellFormed(sel) && CountOf(sel, id) <= 1 ==> id !in Tally.Keys(r) && CountOf(r, id) == 0
    ensures forall k :: k != id ==> CountOf(r, k) == CountOf(sel, k)
    ensures Tally.Keys(r) <= Tally.Keys(sel)
    ensures WellFormed(sel) ==> WellFormed(r)
  {
    if |sel| == 0 then []
    else if sel[0].key == id then
      if sel[0].count > 1 then
        [Tally.Entry(id, sel[0].count - 1)] + sel[1..]
      else
        assert WellFormed(sel) ==> id !in Tally.Keys(sel[1..]) && CountOf(sel[1..], id) == 0 by {
          if WellFormed(sel) { CountOfKeys(sel[1..], id); }
        }
        sel[1..]
    else
      var rest := RemoveSupplement(sel[1..], id);
      assert ([sel[0]] + rest)[1..] == rest;
      assert forall k :: CountOf([sel[0]] + rest, k) == if sel[0].key == k then sel[0].count else CountOf(rest, k);
      [sel[0]] + rest
  }

  /** Adding a supplement and then removing it gives back exactly the
      counter it started from, entry order included. */
  lemma {:induction false} AddThenRemove(sel: Selection, id: string)
    requires WellFormed(sel)
    ensures RemoveSupplement(AddSupplement(sel, id), id) == sel
  {
    if |sel| > 0 && sel[0].key != id {
      AddThenRemove(sel[1..], id);
      var added := AddSupplement(sel[1..], id);
      assert AddSupplement(sel, id) == [sel[0]] + added;
      assert ([sel[0]] + added)[1..] == added;
    } else if |sel| > 0 {
      CountOfKeys(sel, id);
    }
  }

  // ---------------------------------------------------------------------
  // Pricing the line
  // ---------------------------------------------------------------------

  /** One pick's cost per unit of product: 0 for an id the catalogue does not
      know. */
  function PickCost(p: Tally.Entry, catalog: seq<CatalogSupplement>): int
  {
    match FindSupplement(catalog, p.key)
    case Some(s) => s.price * p.count
    case None => 0
  }

  /** The `reduce` over `Object.entries(selectedSupplements)`. */
  function SelectionCost(sel: Selection, catalog: seq<CatalogSupplement>): int
  {
    if |sel| == 0 then 0
    else SelectionCost(sel[..|sel| - 1], catalog) + PickCost(sel[|sel| - 1], catalog)
  }

  /** The screen's state. */
  datatype EntryState = EntryState(selected: Option<Product>, quantity: int, picks: Selection)

  /** Nothing selected, quantity 1, no supplements: the state on mount and
      after a line is added. */
  const Initial := EntryState(None, 1, [])

  /** `calculateItemTotal`. */
  function CalculateItemTotal(st: EntryState, menu: Menu): (r: int)
    ensures st.selected.None? ==> r == 0
    ensures st.selected.Some? ==>
      r == (st.selected.value.price + SelectionCost(st.picks, menu.supplements)) * st.quantity
  {
    match st.selected
    case None => 0
    case Some(p) =>
      var basePrice := p.price * st.quantity;
      var supplementsTotal := SelectionCost(st.picks, menu.supplements) * st.quantity;
      basePrice + supplementsTotal
  }

  /** The line total is linear in the quantity: doubling the quantity with
      the same supplements doubles the total. */
  lemma {:induction false} ItemTotalLinear(st: EntryState, menu: Menu, k: int)
    ensures CalculateItemTotal(st.(quantity := k * st.quantity), menu) == k * CalculateItemTotal(st, menu)
  {
    if st.selected.Some? {
      var c := st.selected.value.price + SelectionCost(st.picks, menu.supplements);
      assert c * (k * st.quantity) == k * (c * st.quantity);
    }
  }

  /** A pick whose id is missing from the catalogue adds nothing to the
      total. */
  lemma {:induction false} UnknownPickCostsNothing(sel: Selection, p: Tally.Entry, catalog: seq<CatalogSupplement>)
    requires FindSupplement(catalog, p.key).None?
    ensures SelectionCost(sel + [p], catalog) == SelectionCost(sel, catalog)
  {
    assert (sel + [p])[..|sel|] == sel;
  }

  // ---------------------------------------------------------------------
  // Building the cart line
  // ---------------------------------------------------------------------

  /** The `supplementsArray` of `handleAddToCart`: one cart supplement per
      pick, in entry order, with the catalogue's name and price. `None` when
      some id is not in the catalogue: reading `supplement.name` then throws
      and nothing is added. */
  function ToCartSupplements(sel: Selection, catalog: seq<CatalogSupplement>): Option<seq<CartSupplement>>
  {
    if |sel| == 0 then Some([])
    else
      var last := sel[|sel| - 1];
      match (ToCartSupplements(sel[..|sel| - 1], catalog), FindSupplement(catalog, last.key))
      case (Some(front), Some(s)) => Some(front + [CartSupplement(last.key, s.name, s.price, last.count)])
      case _ => None
  }

  /** Some pick has an id the catalogue does not know. */
  predicate HasUnknownPick(sel: Selection, catalog: seq<CatalogSupplement>)
  {
    exists i :: 0 <= i < |sel| && FindSupplement(catalog, sel[i].key).None?
  }

  /** A selection has an unknown pick when its front has one or its last
      pick is unknown. */
  lemma {:induction false} UnknownPickSnoc(sel: Selection, catalog: seq<CatalogSupplement>)
    requires |sel| > 0
    ensures HasUnknownPick(sel, catalog) <==>
      HasUnknownPick(sel[..|sel| - 1], catalog) || FindSupplement(catalog, sel[|sel| - 1].key).None?
  {
    var front := sel[..|sel| - 1];
    if HasUnknownPick(front, catalog) {
      var i :| 0 <= i < |front| && FindSupplement(catalog, front[i].key).None?;
      assert sel[i] == front[i];
    }
    if HasUnknownPick(sel, catalog) && FindSupplement(catalog, sel[|sel| - 1].key).Some? {
      var i :| 0 <= i < |sel| && FindSupplement(catalog, sel[i].key).None?;
      assert i < |front| && front[i] == sel[i];
    }
  }

  /** The projection exists exactly when every pick is in the catalogue. */
  lemma {:induction false} ToCartSupplementsDefined(sel: Selection, catalog: seq<CatalogSupplement>)
    ensures ToCartSupplements(sel, catalog).Some? <==> !HasUnknownPick(sel, catalog)
  {
    if |sel| > 0 {
      ToCartSupplementsDefined(sel[..|sel| - 1], catalog);
      UnknownPickSnoc(sel, catalog);
    }
  }

  /** The projected supplements line up with the picks one for one: same id
      and count, and the name and price of the catalogue entry `find` gives
      for that id. */
  lemma {:induction false} ToCartSupplementsPointwise(sel: Selection, catalog: seq<CatalogSupplement>)
    requires ToCartSupplements(sel, catalog).Some?
    ensures var sups := ToCartSupplements(sel, catalog).value;
      && |sups| == |sel|
      && (forall i :: 0 <= i < |sel| ==>
            && sups[i].id == sel[i].key && sups[i].quantity == sel[i].count
            && FindSupplement(catalog, sel[i].key) == Some(CatalogSupplement(sel[i].key, sups[i].name, sups[i].price)))
  {
    if |sel| > 0 {
      var front := sel[..|sel| - 1];
      ToCartSupplementsPointwise(front, catalog);
      var sups := ToCartSupplements(sel, catalog).value;
      var frontSups := ToCartSupplements(front, catalog).value;
      assert sups[..|sups| - 1] == frontSups;
      assert forall i :: 0 <= i < |front| ==> sups[i] == frontSups[i] && sel[i] == front[i];
    }
  }

  /** The projected supplements cost what the line total charged for them. */
  lemma {:induction false} ToCartSupplementsCost(sel: Selection, catalog: seq<CatalogSupplement>)
    requires ToCartSupplements(sel, catalog).Some?
    ensures SupplementsCost(ToCartSupplements(sel, catalog).value) == SelectionCost(sel, catalog)
  {
    if |sel| > 0 {
      var front := sel[..|sel| - 1];
      var last := sel[|sel| - 1];
      ToCartSupplementsCost(front, catalog);
      var sups := ToCartSupplements(sel, catalog).value;
      var frontSups := ToCartSupplements(front, catalog).value;
      var sup := FindSupplement(catalog, last.key).value;
      assert sups == frontSups + [CartSupplement(last.key, sup.name, sup.price, last.count)];
      assert sups[..|sups| - 1] == frontSups;
      assert CartSupplementCost(sups[|sups| - 1]) == PickCost(last, catalog);
    }
  }

  /** The projected supplements line up with the picks one for one, carry
      the catalogue's name and price, and cost what the line total charged
      for them. */
  lemma {:induction false} ToCartSupplementsContents(sel: Selection, catalog: seq<CatalogSupplement>)
    requires ToCartSupplements(sel, catalog).Some?
    ensures var sups := ToCartSupplements(sel, catalog).value;
      && |sups| == |sel|
      && (forall i :: 0 <= i < |sel| ==>
            && sups[i].id == sel[i].key && sups[i].quantity == sel[i].count
            && FindSupplement(catalog, sel[i].key) == Some(CatalogSupplement(sel[i].key, sups[i].name, sups[i].price)))
      && SupplementsCost(sups) == SelectionCost(sel, catalog)
  {
    ToCartSupplementsPointwise(sel, catalog);
    ToCartSupplementsCost(sel, catalog);
  }

  /** Both facts together, as `handleAddToCart` uses them. */
  lemma {:induction false} ToCartSupplementsFacts(sel: Selection, catalog: seq<CatalogSupplement>)
    ensures ToCartSupplements(sel, catalog).Some? <==> !HasUnknownPick(sel, catalog)
    ensures ToCartSupplements(sel, catalog).Some? ==>
      var sups := ToCartSupplements(sel, catalog).value;
      && |sups| == |sel|
      && (forall i :: 0 <= i < |sel| ==>
            && sups[i].id == sel[i].key && sups[i].quantity == sel[i].count
            && FindSupplement(catalog, sel[i].key) == Some(CatalogSupplement(sel[i].key, sups[i].name, sups[i].price)))
      && SupplementsCost(sups) == SelectionCost(sel, catalog)
  {
    ToCartSupplementsDefined(sel, catalog);
    if ToCartSupplements(sel, catalog).Some? {
      ToCartSupplementsContents(sel, catalog);
    }
  }

  /** What `handleAddToCart` does: the line handed to the cart, if any, and
      the screen's next state. */
  datatype AddOutcome = AddOutcome(state: EntryState, added: Option<CartItem>)

  /** `handleAddToCart`. Without a selected product, or when a pick is not in
      the catalogue, nothing is added and the state stays as it was;
      otherwise the line carries the product, the quantity, one supplement
      per pick and the previewed total, and the screen resets. */
  function HandleAddToCart(st: EntryState, menu: Menu): (r: AddOutcome)
    ensures r.added.None? <==> st.selected.None? || HasUnknownPick(st.picks, menu.supplements)
    ensures r.added.None? ==> r.state == st
    ensures r.added.Some? ==>
      var item := r.added.value;
      && r.state == Initial
      && item.productId == st.selected.value.id
      && item.name == st.selected.value.name
      && item.price == st.selected.value.price
      && item.quantity == st.quantity
      && |item.supplements| == |st.picks|
      && (forall i :: 0 <= i < |st.picks| ==>
            && item.supplements[i].id == st.picks[i].key
            && item.supplements[i].quantity == st.picks[i].count
            && FindSupplement(menu.supplements, st.picks[i].key)
               == Some(CatalogSupplement(st.picks[i].key, item.supplements[i].name, item.supplements[i].price)))
      && item.itemTotal == CalculateItemTotal(st, menu)
      && PricedCorrectly(item)
  {
    ToCartSupplementsFacts(st.picks, menu.supplements);
    match st.selected
    case None => AddOutcome(st, None)
    case Some(p) =>
      match ToCartSupplements(st.picks, menu.supplements)
      case None => AddOutcome(st, None)
      case Some(sups) =>
        AddOutcome(Initial, Some(CartItem(p.id, p.name, st.quantity, p.price, sups, CalculateItemTotal(st, menu))))
  }

  /** The line a drink button adds: one unit, no supplements, the drink's
      price as total, which is what the pricing rule gives for it. */
  function DrinkLine(d: Drink): (r: CartItem)
    ensures r.productId == d.id && r.name == d.name && r.price == d.price
    ensures r.quantity == 1 && r.supplements == []
    ensures PricedCorrectly(r)
  {
    CartItem(d.id, d.name, 1, d.price, [], d.price)
  }

  // ---------------------------------------------------------------------
  // The screen as a state machine
  // ---------------------------------------------------------------------

  /** `Math.max(1, quantity - 1)`. */
  function Decrement(q: int): (r: int)
    ensures r >= 1
    ensures q >= 2 ==> r == q - 1
    ensures q <= 1 ==> r == 1
  {
    if q - 1 > 1 then q - 1 else 1
  }

  /** The user actions the screen reacts to. */
  datatype Action =
    | SelectProduct(product: Product)
    | AddPick(id: string)
    | RemovePick(id: string)
    | Minus
    | Plus
    | AddToCart

  /** The screen's state after one action. Selecting a product clears the
      supplements but keeps the quantity. */
  function Apply(st: EntryState, a: Action, menu: Menu): (r: EntryState)
    ensures a.SelectProduct? ==> r == st.(selected := Some(a.product), picks := [])
    ensures a.Plus? ==> r == st.(quantity := st.quantity + 1)
    ensures a.Minus? ==> r.quantity >= 1 && (st.quantity >= 2 ==> r.quantity == st.quantity - 1)
    ensures a.Minus? && st.quantity <= 1 ==> r.quantity == 1
    ensures a.Minus? ==> r.selected == st.selected && r.picks == st.picks
  {
    match a
    case SelectProduct(p) => st.(selected := Some(p), picks := [])
    case AddPick(id) => st.(picks := AddSupplement(st.picks, id))
    case RemovePick(id) => st.(picks := RemoveSupplement(st.picks, id))
    case Minus => st.(quantity := Decrement(st.quantity))
    case Plus => st.(quantity := st.quantity + 1)
    case AddToCart => HandleAddToCart(st, menu).state
  }

  function Run(st: EntryState, actions: seq<Action>, menu: Menu): EntryState
    decreases |actions|
  {
    if |actions| == 0 then st else Run(Apply(st, actions[0], menu), actions[1..], menu)
  }

  /** The invariant of the screen: the quantity is at least 1 and the
      supplement counter is well formed. */
  predicate Valid(st: EntryState)
  {
    st.quantity >= 1 && WellFormed(st.picks)
  }

  /** Every action keeps the screen valid. */
  lemma {:induction false} ApplyKeepsValid(st: EntryState, a: Action, menu: Menu)
    requires Valid(st)
    ensures Valid(Apply(st, a, menu))
  {
  }

  /** Whatever the user clicks, starting from the initial state the quantity
      never drops below 1 and no supplement count is ever below 1. */
  lemma {:induction false} RunKeepsValid(st: EntryState, actions: seq<Action>, menu: Menu)
    requires Valid(st)
    ensures Valid(Run(st, actions, menu))
    decreases |actions|
  {
    if |actions| > 0 {
      ApplyKeepsValid(st, actions[0], menu);
      RunKeepsValid(Apply(st, actions[0], menu), actions[1..], menu);
    }
  }
}

=== FILE: order_history.dfy ===
/** The order history screen: the status query sent to the back end, the
    calendar-day filter, the free-text search, the status badges, status
    changes, and the "Articles" text of the spreadsheet export. */
module OrderHistory {
  import opened Wrappers
  import opened Orders
  import Seqs
  import Text
  import Statistics

  // ---------------------------------------------------------------------
  // Status query
  // ---------------------------------------------------------------------

  /** The values of the status `<select>`s: the five statuses the screen
      knows. The filter `<select>` has `all` in addition. */
  const Statuses: seq<string> := ["pending", "preparing", "ready", "delivered", "cancelled"]

  /** `statusFilter !== "all" ? { status: statusFilter } : {}`: the status
      parameter of the request, absent for `all`. */
  function StatusQuery(statusFilter: string): (r: Option<string>)
    ensures r.None? <==> statusFilter == "all"
    ensures r.Some? ==> r.value == statusFilter
  {
    if statusFilter != "all" then Some(statusFilter) else None
  }

  /** Every status the filter offers is sent as that status, and none of them
      is mistaken for `all`. */
  lemma {:induction false} EveryStatusIsQueried(i: int)
    requires 0 <= i < |Statuses|
    ensures StatusQuery(Statuses[i]) == Some(Statuses[i])
  {
    assert Statuses[i] != "all";
  }

  // ---------------------------------------------------------------------
  // Calendar-day filter
  // ---------------------------------------------------------------------

  /** The `selectedDate` branch of `fetchOrders`: with a date, the orders
      falling on the same local calendar day; without one, all of them.
      `selected` is the instant `new Date(selectedDate)` yields. */
  function DayFilter(orders: seq<Order>, selected: Option<Timestamp>, cal: Calendar): (r: seq<Order>)
    ensures selected.None? ==> r == orders
    ensures selected.Some? ==>
      forall o :: o in orders ==> (o in r <==> DateOf(cal, o.createdAt) == DateOf(cal, selected.value))
    ensures multiset(r) <= multiset(orders)
  {
    if selected.Some? then Seqs.Filter(orders, Statistics.OnDay(cal, selected.value)) else orders
  }

  /** The history screen's day filter and the statistics screen's `day`
      period keep exactly the same orders, in the same order. */
  lemma {:induction false} DayFilterAgreesWithStatistics(orders: seq<Order>, selected: Timestamp,
                                                        now: Timestamp, cal: Calendar)
    ensures DayFilter(orders, Some(selected), cal)
         == Statistics.ApplyPeriodFilter(orders, Statistics.Day, Some(selected), now, cal)
  {
  }

  // ---------------------------------------------------------------------
  // Search
  // ---------------------------------------------------------------------

  /** The search predicate of `filteredOrders`: the lower-cased order number
      includes the lower-cased term, or the customer name is present and its
      lower-cased form includes it. */
  function MatchesSearch(o: Order, term: string): (r: bool)
    ensures r <==> Text.Contains(Text.Lower(o.orderNumber), Text.Lower(term))
                   || (o.customerName != "" && Text.Contains(Text.Lower(o.customerName), Text.Lower(term)))
  {
    var needle := Text.Lower(term);
    Text.Includes(Text.Lower(o.orderNumber), needle)
    || (o.customerName != "" && Text.Includes(Text.Lower(o.customerName), needle))
  }

  function SearchFilter(orders: seq<Order>, term: string): (r: seq<Order>)
    ensures forall o :: o in orders ==> (o in r <==> MatchesSearch(o, term))
    ensures multiset(r) <= multiset(orders)
  {
    Seqs.Filter(orders, (o: Order) => MatchesSearch(o, term))
  }

  /** The search keeps the fetched order: searching a concatenation is
      searching each part and concatenating the results, so matching orders
      appear in the order the list had. */
  lemma {:induction false} SearchFilterAppend(a: seq<Order>, b: seq<Order>, term: string)
    ensures SearchFilter(a + b, term) == SearchFilter(a, term) + SearchFilter(b, term)
  {
    Seqs.FilterAppend(a, b, (o: Order) => MatchesSearch(o, term));
  }

  /** An empty search box shows every order. */
  lemma {:induction false} EmptySearchKeepsAll(orders: seq<Order>)
    ensures SearchFilter(orders, "") == orders
  {
    forall i | 0 <= i < |orders| ensures MatchesSearch(orders[i], "") {
      Text.IncludesEmpty(Text.Lower(orders[i].orderNumber));
    }
    Seqs.FilterAll(orders, (o: Order) => MatchesSearch(o, ""));
  }

  /** The search ignores the case of the term: typing it in upper or lower
      case finds the same orders. */
  lemma {:induction false} SearchIgnoresCase(o: Order, term: string)
    ensures MatchesSearch(o, Text.Lower(term)) == MatchesSearch(o, term)
  {
    Text.LowerIdempotent(term);
  }

  /** An order is found by its own number, in any case. */
  lemma {:induction false} FoundByOwnNumber(o: Order)
    ensures MatchesSearch(o, o.orderNumber)
  {
    assert Text.OccursAt(Text.Lower(o.orderNumber), Text.Lower(o.orderNumber), 0);
  }

  // ---------------------------------------------------------------------
  // Status badges
  // ---------------------------------------------------------------------

  /** The colour classes and the French label of a status badge. */
  datatype Badge = Badge(classes: string, caption: string)

  /** `getStatusBadge`: the `badges` and `labels` tables. A status outside
      the five has no entry in either (`None`): the badge then renders the
      class `undefined` and no label. */
  function StatusBadge(status: string): (r: Option<Badge>)
    ensures r.Some? <==> status in Statuses
  {
    match status
    case "pending" => Some(Badge("bg-yellow-100 text-yellow-800", "En attente"))
    case "preparing" => Some(Badge("bg-blue-100 text-blue-800", "En préparation"))
    case "ready" => Some(Badge("bg-green-100 text-green-800", "Prêt"))
    case "delivered" => Some(Badge("bg-gray-100 text-gray-800", "Livré"))
    case "cancelled" => Some(Badge("bg-red-100 text-red-800", "Annulé"))
    case _ => None
  }

  /** Different known statuses get different labels and different colours,
      so the badge tells them apart. */
  lemma {:induction false} BadgesDistinguishStatuses(a: string, b: string)
    requires a in Statuses && b in Statuses && a != b
    ensures StatusBadge(a).value.caption != StatusBadge(b).value.caption
    ensures StatusBadge(a).value.classes != StatusBadge(b).value.classes
  {
  }

  /** The statistics screen counts orders whose status is literally
      `completed`, a status none of the selects here can set: over orders
      whose statuses all come from this screen, that counter stays 0 and the
      `delivered` ones are counted nowhere. */
  lemma {:induction false} CompletedNeverSet(orders: seq<Order>)
    requires forall i :: 0 <= i < |orders| ==> orders[i].status in Statuses
    ensures Statistics.CalculateStats(orders).completed == 0
  {
    assert "completed" !in Statuses;
    Seqs.FilterNone(orders, Statistics.HasStatus("completed"));
  }

  // ---------------------------------------------------------------------
  // Status changes
  // ---------------------------------------------------------------------

  /** The update `handleUpdateStatus` sends: `{ status: newStatus }` for the
      order `orderId`. */
  datatype StatusUpdate = StatusUpdate(orderId: string, status: string)

  /** The back end's stored list once it has applied an update: the
      matching orders take the new status, whatever their current one;
      nothing else changes. The screen then calls `fetchOrders` again, which
      sends the status query and re-applies `DayFilter` to what comes back. */
  function ApplyStatus(orders: seq<Order>, u: StatusUpdate): (r: seq<Order>)
    ensures |r| == |orders|
    ensures forall i :: 0 <= i < |orders| ==>
      r[i] == if orders[i].id == u.orderId then orders[i].(status := u.status) else orders[i]
  {
    if |orders| == 0 then []
    else [if orders[0].id == u.orderId then orders[0].(status := u.status) else orders[0]]
         + ApplyStatus(orders[1..], u)
  }

  /** There is no transition rule: from any status, including `delivered` and
      `cancelled`, every status of the select is one update away, and the
      order's other fields are kept. */
  lemma {:induction false} AnyStatusReachable(orders: seq<Order>, i: int, target: string)
    requires 0 <= i < |orders|
    ensures var r := ApplyStatus(orders, StatusUpdate(orders[i].id, target));
      && r[i].status == target
      && r[i].(status := orders[i].status) == orders[i]
  {
  }

  /** Re-sending the same update changes nothing more. */
  lemma {:induction false} ApplyStatusIdempotent(orders: seq<Order>, u: StatusUpdate)
    ensures ApplyStatus(ApplyStatus(orders, u), u) == ApplyStatus(orders, u)
  {
    var once := ApplyStatus(orders, u);
    var twice := ApplyStatus(once, u);
    assert forall i :: 0 <= i < |orders| ==> twice[i] == once[i];
  }

  // ---------------------------------------------------------------------
  // Export
  // ---------------------------------------------------------------------

  /** `${s.name} x${s.quantity}`. */
  function SupplementText(s: OrderSupplement): string
  {
    s.name + " x" + Text.IntToString(s.quantity)
  }

  function SupplementTexts(sups: seq<OrderSupplement>): (r: seq<string>)
    ensures |r| == |sups|
    ensures forall i :: 0 <= i < |sups| ==> r[i] == SupplementText(sups[i])
  {
    if |sups| == 0 then [] else [SupplementText(sups[0])] + SupplementTexts(sups[1..])
  }

  /** `${q}x ${name}` followed, when there are supplements, by their list in
      parentheses. An item without a `supplements` field makes
      `item.supplements.length` throw: `None`. */
  function ItemText(item: OrderItem): (r: Option<string>)
    ensures r.None? <==> item.supplements.None?
    ensures item.supplements.Some? && |item.supplements.value| == 0 ==>
      r == Some(Text.IntToString(item.quantity) + "x " + item.name)
    ensures item.supplements.Some? && |item.supplements.value| > 0 ==>
      r == Some(Text.IntToString(item.quantity) + "x " + item.name
                + " (" + Text.Join(", ", SupplementTexts(item.supplements.value)) + ")")
  {
    match item.supplements
    case None => None
    case Some(sups) =>
      var head := Text.IntToString(item.quantity) + "x " + item.name;
      Some(if |sups| > 0 then head + " (" + Text.Join(", ", SupplementTexts(sups)) + ")" else head)
  }

  /** The text of an item starts with its quantity, which reads back as that
      quantity and is ended by the first `x` of the text; an item without
      supplements is exactly `{q}x {name}`. */
  lemma {:induction false} ItemTextReadsBack(item: OrderItem)
    requires item.supplements.Some?
    ensures var t := ItemText(item).value;
      var k := |Text.IntToString(item.quantity)|;
      && k < |t|
      && Text.ParseInt(t[..k]) == Some(item.quantity)
      && t[k] == 'x'
      && (forall j :: 0 <= j < k ==> t[j] != 'x')
      && (|item.supplements.value| == 0 <==> t == Text.IntToString(item.quantity) + "x " + item.name)
  {
    var q := Text.IntToString(item.quantity);
    var head := q + "x " + item.name;
    var t := ItemText(item).value;
    assert t[..|q|] == q;
    Text.IntToStringRoundTrip(item.quantity);
    Text.IntToStringChars(item.quantity, 'x');
    if |item.supplements.value| > 0 {
      assert |t| > |head|;
    }
  }

  function ItemTexts(items: seq<OrderItem>): (r: Option<seq<string>>)
    ensures r.None? <==> exists i :: 0 <= i < |items| && items[i].supplements.None?
    ensures r.Some? ==> |r.value| == |items| && forall i :: 0 <= i < |items| ==> Some(r.value[i]) == ItemText(items[i])
  {
    if |items| == 0 then Some([])
    else
      match (ItemText(items[0]), ItemTexts(items[1..]))
      case (Some(t), Some(ts)) => Some([t] + ts)
      case (None, _) => None
      case (_, None) =>
        assert exists i :: 0 <= i < |items| && items[i].supplements.None? by {
          var i :| 0 <= i < |items[1..]| && items[1..][i].supplements.None?;
          assert items[i + 1].supplements.None?;
        }
        None
  }

  /** The "Articles" cell: the item texts joined with " | ". */
  function Articles(items: seq<OrderItem>): (r: Option<string>)
    ensures r.None? <==> exists i :: 0 <= i < |items| && items[i].supplements.None?
    ensures r.Some? ==> r.value == Text.Join(" | ", ItemTexts(items).value)
  {
    match ItemTexts(items)
    case None => None
    case Some(ts) => Some(Text.Join(" | ", ts))
  }

  /** The cell's length is the items' texts plus one three-character
      separator between neighbours: nothing is dropped or added. */
  lemma {:induction false} ArticlesLength(items: seq<OrderItem>)
    requires |items| >= 1 && Articles(items).Some?
    ensures |Articles(items).value| == Seqs.SumOf(ItemTexts(items).value, Text.Len) + 3 * (|items| - 1)
  {
    Text.JoinLength(" | ", ItemTexts(items).value);
  }

  /** One row of the exported sheet. The date column and the `toFixed(3)`
      rendering of the total are locale and floating-point formatting and
      are not modelled: the total stays in minor units. */
  datatype ExportRow = ExportRow(
    orderNumber: string,
    client: string,
    status: string,
    payment: string,
    total: int,
    articles: string)

  /** `handleExportExcel`: it fails on an item without `supplements`, shows
      "nothing to export" for an empty list, and otherwise writes one row
      per listed order. */
  datatype ExportResult = Failed | NothingToExport | Sheet(rows: seq<ExportRow>)

  /** The row written for order `o`: its number, its customer's name or "-"
      when there is none, its status, payment method, total and articles. */
  predicate RowOf(o: Order, row: ExportRow)
  {
    && row.orderNumber == o.orderNumber
    && row.client == (if o.customerName == "" then "-" else o.customerName)
    && row.status == o.status
    && row.payment == o.paymentMethod
    && row.total == o.totalAmount
    && Some(row.articles) == Articles(o.items)
  }

  function ExportRows(orders: seq<Order>): (r: Option<seq<ExportRow>>)
    ensures r.None? <==> exists i :: 0 <= i < |orders| && Articles(orders[i].items).None?
    ensures r.Some? ==> |r.value| == |orders| && forall i :: 0 <= i < |orders| ==> RowOf(orders[i], r.value[i])
  {
    if |orders| == 0 then Some([])
    else
      var o := orders[0];
      match (Articles(o.items), ExportRows(orders[1..]))
      case (Some(a), Some(rest)) =>
        Some([ExportRow(o.orderNumber, if o.customerName == "" then "-" else o.customerName,
                        o.status, o.paymentMethod, o.totalAmount, a)] + rest)
      case (None, _) => None
      case (_, None) =>
        assert exists i :: 0 <= i < |orders| && Articles(orders[i].items).None? by {
          var i :| 0 <= i < |orders[1..]| && Articles(orders[1..][i].items).None?;
          assert Articles(orders[i + 1].items).None?;
        }
        None
  }

  function Export(visible: seq<Order>): (r: ExportResult)
    ensures r == Failed <==> exists i, j :: 0 <= i < |visible| && 0 <= j < |visible[i].items|
                                          && visible[i].items[j].supplements.None?
    ensures r == NothingToExport <==> |visible| == 0
    ensures r.Sheet? ==> |r.rows| == |visible| > 0
    ensures r.Sheet? ==> forall i :: 0 <= i < |visible| ==> RowOf(visible[i], r.rows[i])
  {
    match ExportRows(visible)
    case None =>
      assert exists i, j :: 0 <= i < |visible| && 0 <= j < |visible[i].items|
                           && visible[i].items[j].supplements.None? by {
        var i :| 0 <= i < |visible| && Articles(visible[i].items).None?;
        var j :| 0 <= j < |visible[i].items| && visible[i].items[j].supplements.None?;
      }
      Failed
    case Some(rows) =>
      assert forall i, j :: 0 <= i < |visible| && 0 <= j < |visible[i].items|
                           ==> visible[i].items[j].supplements.Some? by {
        forall i, j | 0 <= i < |visible| && 0 <= j < |visible[i].items|
          ensures visible[i].items[j].supplements.Some?
        {
          assert Articles(visible[i].items).Some?;
        }
      }
      if |rows| == 0 then NothingToExport else Sheet(rows)
  }

  /** Orders placed from the cart always carry a supplements list, so the
      export of such orders never fails, and it has one row per order. */
  lemma {:induction false} ExportOfPlacedOrders(visible: seq<Order>)
    requires forall i, j :: 0 <= i < |visible| && 0 <= j < |visible[i].items| ==> visible[i].items[j].supplements.Some?
    requires |visible| > 0
    ensures Export(visible).Sheet? && |Export(visible).rows| == |visible|
  {
  }
}

=== FILE: orders.dfy ===
/** The records the point-of-sale screens pass around: cart lines built by the
    order-entry screen, the order items and orders the back end stores, and
    the local calendar used to read an order's creation time.

    Money is an integer number of minor currency units (millimes); display
    formatting, which divides by 1000, is not part of this model. */
module Orders {
  import opened Wrappers
  import Seqs

  // ---------------------------------------------------------------------
  // Time
  // ---------------------------------------------------------------------

  /** Milliseconds since the epoch, the value of `Date.prototype.getTime`. */
  type Timestamp = int

  /** A local calendar date as `getFullYear`, `getMonth` and `getDate` read
      it (months are 0-based in JavaScript; nothing here depends on that). */
  datatype Date = Date(year: int, month: int, day: int)

  /** The local time zone, kept abstract: `localDay` numbers the local
      calendar day a timestamp falls on, `civil` names that day, and
      `midnight` is the timestamp `new Date(year, month, day)` builds for
      local midnight of a date. */
  datatype Calendar = Calendar(
    localDay: Timestamp -> int,
    civil: int -> Date,
    midnight: Date -> Timestamp)

  /** The local calendar date of a timestamp. */
  function DateOf(cal: Calendar, t: Timestamp): Date
  {
    cal.civil(cal.localDay(t))
  }

  /** The calendar test the history and statistics screens share: same
      `getDate()`, `getMonth()` and `getFullYear()`. */
  predicate SameDay(cal: Calendar, a: Timestamp, b: Timestamp)
  {
    DateOf(cal, a) == DateOf(cal, b)
  }

  // ---------------------------------------------------------------------
  // Cart lines
  // ---------------------------------------------------------------------

  /** A supplement on a cart line, as the order-entry screen builds it. */
  datatype CartSupplement = CartSupplement(id: string, name: string, price: int, quantity: int)

  /** A cart line. `itemTotal` is computed when the line is built and never
      recomputed afterwards. */
  datatype CartItem = CartItem(
    productId: string,
    name: string,
    quantity: int,
    price: int,
    supplements: seq<CartSupplement>,
    itemTotal: int)

  function CartSupplementCost(s: CartSupplement): int { s.price * s.quantity }

  /** What one unit of the line costs in supplements. */
  function SupplementsCost(sups: seq<CartSupplement>): int
  {
    Seqs.SumOf(sups, CartSupplementCost)
  }

  /** The pricing rule a line's total is expected to follow: supplements are
      priced per unit of the product and scaled by the line's quantity. */
  predicate PricedCorrectly(item: CartItem)
  {
    item.itemTotal == (item.price + SupplementsCost(item.supplements)) * item.quantity
  }

  function ItemTotalOf(item: CartItem): int { item.itemTotal }

  // ---------------------------------------------------------------------
  // Stored orders
  // ---------------------------------------------------------------------

  /** A supplement as it is sent to and stored by the back end: the
      catalogue id is gone. */
  datatype OrderSupplement = OrderSupplement(name: string, quantity: int, price: int)

  /** An order line as the back end returns it. `supplements` may be absent
      from a stored record. */
  datatype OrderItem = OrderItem(
    productId: string,
    name: string,
    quantity: int,
    price: int,
    supplements: Option<seq<OrderSupplement>>,
    itemTotal: int)

  function OrderSupplementCost(s: OrderSupplement): int { s.price * s.quantity }

  /** The same pricing rule as `PricedCorrectly`, for a stored line. */
  predicate ItemPricedCorrectly(item: OrderItem)
  {
    item.supplements.Some? &&
    item.itemTotal == (item.price + Seqs.SumOf(item.supplements.value, OrderSupplementCost)) * item.quantity
  }

  /** An order as the back end returns it. `status` and `paymentMethod` are
      free strings: nothing on the client restricts the values stored. An
      empty `customerName` stands for an absent one. */
  datatype Order = Order(
    id: string,
    orderNumber: string,
    items: seq<OrderItem>,
    totalAmount: int,
    customerName: string,
    paymentMethod: string,
    notes: string,
    status: string,
    createdAt: Timestamp)

  function AmountOf(o: Order): int { o.totalAmount }

  /** `orders.reduce((s, o) => s + o.totalAmount, 0)`. */
  function Revenue(orders: seq<Order>): int
  {
    Seqs.SumOf(orders, AmountOf)
  }
}

=== FILE: popularity.dfy ===
/** The two rankings of the statistics screen: units sold per product and
    per supplement (`calculateProducts`), and orders per payment method
    (`calculatePayments`). Both accumulate into a counter object and read it
    back with `Object.entries`. */
module Popularity {
  import opened Wrappers
  import opened Orders
  import Seqs
  import Tally

  // ---------------------------------------------------------------------
  // Accumulating units sold
  // ---------------------------------------------------------------------

  /** `${s.name} (${t.supplement})`: supplements are counted under their
      name tagged with the translated word for "supplement". */
  function SupplementKey(name: string, tag: string): string
  {
    name + " (" + tag + ")"
  }

  /** `s.quantity || 1`: a zero quantity counts as one. */
  function SupplementUnits(s: OrderSupplement): int
  {
    if s.quantity == 0 then 1 else s.quantity
  }

  function CountSupplements(acc: Tally.Counter, sups: seq<OrderSupplement>, itemQuantity: int, tag: string): Tally.Counter
    decreases |sups|
  {
    if |sups| == 0 then acc
    else
      var key := SupplementKey(sups[0].name, tag);
      CountSupplements(Tally.Bump(acc, key, SupplementUnits(sups[0]) * itemQuantity), sups[1..], itemQuantity, tag)
  }

  /** One item: its quantity under its name, then each supplement's units
      times the item quantity under the supplement's key. An item without a
      `supplements` field contributes only its own quantity. */
  function CountItem(acc: Tally.Counter, item: OrderItem, tag: string): Tally.Counter
  {
    var a := Tally.Bump(acc, item.name, item.quantity);
    match item.supplements
    case None => a
    case Some(sups) => CountSupplements(a, sups, item.quantity, tag)
  }

  function CountItems(acc: Tally.Counter, items: seq<OrderItem>, tag: string): Tally.Counter
    decreases |items|
  {
    if |items| == 0 then acc else CountItems(CountItem(acc, items[0], tag), items[1..], tag)
  }

  /** The `productCounts` object after the nested `forEach` loops. */
  function CountOrders(acc: Tally.Counter, orders: seq<Order>, tag: string): Tally.Counter
    decreases |orders|
  {
    if |orders| == 0 then acc else CountOrders(CountItems(acc, orders[0].items, tag), orders[1..], tag)
  }

  // Reference definitions: how many units a key is credited with, and which
  // keys occur, computed per key rather than by accumulation.

  function SupplementsUnitsFor(sups: seq<OrderSupplement>, itemQuantity: int, tag: string, key: string): int
  {
    if |sups| == 0 then 0
    else (if SupplementKey(sups[0].name, tag) == key then SupplementUnits(sups[0]) * itemQuantity else 0)
         + SupplementsUnitsFor(sups[1..], itemQuantity, tag, key)
  }

  function ItemUnitsFor(item: OrderItem, tag: string, key: string): int
  {
    (if item.name == key then item.quantity else 0)
    + match item.supplements
      case None => 0
      case Some(sups) => SupplementsUnitsFor(sups, item.quantity, tag, key)
  }

  function ItemsUnitsFor(items: seq<OrderItem>, tag: string, key: string): int
  {
    if |items| == 0 then 0 else ItemUnitsFor(items[0], tag, key) + ItemsUnitsFor(items[1..], tag, key)
  }

  /** Units credited to `key` over all orders. */
  function UnitsSold(orders: seq<Order>, tag: string, key: string): int
  {
    if |orders| == 0 then 0 else ItemsUnitsFor(orders[0].items, tag, key) + UnitsSold(orders[1..], tag, key)
  }

  function SupplementKeys(sups: seq<OrderSupplement>, tag: string): set<string>
  {
    if |sups| == 0 then {} else {SupplementKey(sups[0].name, tag)} + SupplementKeys(sups[1..], tag)
  }

  function ItemKeys(item: OrderItem, tag: string): set<string>
  {
    {item.name} + match item.supplements
                  case None => {}
                  case Some(sups) => SupplementKeys(sups, tag)
  }

  function ItemsKeys(items: seq<OrderItem>, tag: string): set<string>
  {
    if |items| == 0 then {} else ItemKeys(items[0], tag) + ItemsKeys(items[1..], tag)
  }

  /** Every product name and tagged supplement key occurring in the orders. */
  function OrdersKeys(orders: seq<Order>, tag: string): set<string>
  {
    if |orders| == 0 then {} else ItemsKeys(orders[0].items, tag) + OrdersKeys(orders[1..], tag)
  }

  lemma {:induction false} CountSupplementsFacts(acc: Tally.Counter, sups: seq<OrderSupplement>, q: int, tag: string)
    ensures forall key :: Tally.Get(CountSupplements(acc, sups, q, tag), key)
                          == Tally.Get(acc, key) + SupplementsUnitsFor(sups, q, tag, key)
    ensures Tally.Keys(CountSupplements(acc, sups, q, tag)) == Tally.Keys(acc) + SupplementKeys(sups, tag)
    ensures Tally.UniqueKeys(acc) ==> Tally.UniqueKeys(CountSupplements(acc, sups, q, tag))
    decreases |sups|
  {
    if |sups| > 0 {
      var key := SupplementKey(sups[0].name, tag);
      CountSupplementsFacts(Tally.Bump(acc, key, SupplementUnits(sups[0]) * q), sups[1..], q, tag);
    }
  }

  lemma {:induction false} CountItemFacts(acc: Tally.Counter, item: OrderItem, tag: string)
    ensures forall key :: Tally.Get(CountItem(acc, item, tag), key) == Tally.Get(acc, key) + ItemUnitsFor(item, tag, key)
    ensures Tally.Keys(CountItem(acc, item, tag)) == Tally.Keys(acc) + ItemKeys(item, tag)
    ensures Tally.UniqueKeys(acc) ==> Tally.UniqueKeys(CountItem(acc, item, tag))
  {
    if item.supplements.Some? {
      CountSupplementsFacts(Tally.Bump(acc, item.name, item.quantity), item.supplements.value, item.quantity, tag);
    }
  }

  lemma {:induction false} CountItemsFacts(acc: Tally.Counter, items: seq<OrderItem>, tag: string)
    ensures forall key :: Tally.Get(CountItems(acc, items, tag), key) == Tally.Get(acc, key) + ItemsUnitsFor(items, tag, key)
    ensures Tally.Keys(CountItems(acc, items, tag)) == Tally.Keys(acc) + ItemsKeys(items, tag)
    ensures Tally.UniqueKeys(acc) ==> Tally.UniqueKeys(CountItems(acc, items, tag))
    decreases |items|
  {
    if |items| > 0 {
      CountItemFacts(acc, items[0], tag);
      CountItemsFacts(CountItem(acc, items[0], tag), items[1..], tag);
    }
  }

  /** Accumulating the orders credits every key with exactly its units sold,
      creates exactly the keys that occur, and never duplicates a key. */
  lemma {:induction false} CountOrdersFacts(acc: Tally.Counter, orders: seq<Order>, tag: string)
    ensures forall key :: Tally.Get(CountOrders(acc, orders, tag), key) == Tally.Get(acc, key) + UnitsSold(orders, tag, key)
    ensures Tally.Keys(CountOrders(acc, orders, tag)) == Tally.Keys(acc) + OrdersKeys(orders, tag)
    ensures Tally.UniqueKeys(acc) ==> Tally.UniqueKeys(CountOrders(acc, orders, tag))
    decreases |orders|
  {
    if |orders| > 0 {
      CountItemsFacts(acc, orders[0].items, tag);
      CountOrdersFacts(CountItems(acc, orders[0].items, tag), orders[1..], tag);
    }
  }

  // ---------------------------------------------------------------------
  // Sorting by count, descending and stable
  // ---------------------------------------------------------------------

  predicate SortedDesc(s: seq<Tally.Entry>)
  {
    forall i, j :: 0 <= i < j < |s| ==> s[i].count >= s[j].count
  }

  /** The entries of `s` whose count is `c`, in order. */
  function WithCount(s: seq<Tally.Entry>, c: int): seq<Tally.Entry>
  {
    if |s| == 0 then []
    else (if s[0].count == c then [s[0]] else []) + WithCount(s[1..], c)
  }

  /** Inserts `e` in front of the first entry whose count is not greater:
      ahead of the entries with the same count, which came after it. */
  function Insert(e: Tally.Entry, sorted: seq<Tally.Entry>): (r: seq<Tally.Entry>)
    ensures multiset(r) == multiset(sorted) + multiset{e}
  {
    if |sorted| == 0 then [e]
    else if sorted[0].count > e.count then
      assert sorted == [sorted[0]] + sorted[1..];
      [sorted[0]] + Insert(e, sorted[1..])
    else [e] + sorted
  }

  /** `.sort((a, b) => b.count - a.count)`: `Array.prototype.sort` is stable,
      so this is a stable insertion sort by count, largest first. */
  function SortByCount(s: seq<Tally.Entry>): (r: seq<Tally.Entry>)
    ensures multiset(r) == multiset(s)
  {
    if |s| == 0 then []
    else
      assert s == [s[0]] + s[1..];
      Insert(s[0], SortByCount(s[1..]))
  }

  lemma {:induction false} InsertSorted(e: Tally.Entry, t: seq<Tally.Entry>)
    requires SortedDesc(t)
    ensures SortedDesc(Insert(e, t))
  {
    if |t| > 0 && t[0].count > e.count {
      var rest := Insert(e, t[1..]);
      InsertSorted(e, t[1..]);
      forall j | 0 <= j < |rest| ensures t[0].count >= rest[j].count {
        assert rest[j] in multiset(rest);
        if rest[j] != e {
          assert rest[j] in t[1..];
          var k :| 0 <= k < |t[1..]| && t[1..][k] == rest[j];
          assert t[k + 1] == rest[j];
        }
      }
    }
  }

  lemma {:induction false} InsertWithCount(e: Tally.Entry, t: seq<Tally.Entry>, c: int)
    ensures WithCount(Insert(e, t), c) == (if e.count == c then [e] else []) + WithCount(t, c)
  {
    if |t| > 0 && t[0].count > e.count {
      var rest := Insert(e, t[1..]);
      InsertWithCount(e, t[1..], c);
      assert ([t[0]] + rest)[1..] == rest;
      assert WithCount(Insert(e, t), c) == (if t[0].count == c then [t[0]] else []) + WithCount(rest, c);
      assert WithCount(t, c) == (if t[0].count == c then [t[0]] else []) + WithCount(t[1..], c);
      if e.count == c {
        assert t[0].count != c;
      } else {
        assert WithCount(rest, c) == WithCount(t[1..], c);
      }
    } else if |t| > 0 {
      assert ([e] + t)[1..] == t;
    } else {
      assert Insert(e, t) == [e];
      assert [e][1..] == [];
    }
  }

  lemma {:induction false} InsertKeys(e: Tally.Entry, t: seq<Tally.Entry>)
    ensures Tally.Keys(Insert(e, t)) == {e.key} + Tally.Keys(t)
    ensures Tally.UniqueKeys(t) && e.key !in Tally.Keys(t) ==> Tally.UniqueKeys(Insert(e, t))
  {
    if |t| > 0 && t[0].count > e.count {
      InsertKeys(e, t[1..]);
      assert ([t[0]] + Insert(e, t[1..]))[1..] == Insert(e, t[1..]);
    } else if |t| > 0 {
      assert ([e] + t)[1..] == t;
    }
  }

  /** The sort orders by count, largest first; it is a permutation; and it
      is stable: the entries sharing a count keep their relative order. */
  lemma {:induction false} SortFacts(s: seq<Tally.Entry>)
    ensures SortedDesc(SortByCount(s))
    ensures forall c :: WithCount(SortByCount(s), c) == WithCount(s, c)
    ensures Tally.Keys(SortByCount(s)) == Tally.Keys(s)
    ensures Tally.UniqueKeys(s) ==> Tally.UniqueKeys(SortByCount(s))
  {
    if |s| > 0 {
      SortFacts(s[1..]);
      InsertSorted(s[0], SortByCount(s[1..]));
      forall c ensures WithCount(SortByCount(s), c) == WithCount(s, c) {
        InsertWithCount(s[0], SortByCount(s[1..]), c);
      }
      InsertKeys(s[0], SortByCount(s[1..]));
    }
  }

  /** `calculateProducts`: every key accumulated from the orders appears
      exactly once with its units sold, sorted by count, largest first, ties
      in first-seen order, nothing dropped. */
  function CalculateProducts(filtered: seq<Order>, tag: string): (r: seq<Tally.Entry>)
    ensures SortedDesc(r)
    ensures Tally.UniqueKeys(r)
    ensures Tally.Keys(r) == OrdersKeys(filtered, tag)
    ensures forall i :: 0 <= i < |r| ==> r[i].count == UnitsSold(filtered, tag, r[i].key)
    ensures forall c :: WithCount(r, c) == WithCount(CountOrders([], filtered, tag), c)
  {
    var counts := CountOrders([], filtered, tag);
    CountOrdersFacts([], filtered, tag);
    SortFacts(counts);
    var r := SortByCount(counts);
    assert forall i :: 0 <= i < |r| ==> r[i].count == UnitsSold(filtered, tag, r[i].key) by {
      forall i | 0 <= i < |r| ensures r[i].count == UnitsSold(filtered, tag, r[i].key) {
        assert r[i] in multiset(counts);
        Tally.GetOfMember(counts, r[i]);
      }
    }
    r
  }

  // ---------------------------------------------------------------------
  // Payment methods
  // ---------------------------------------------------------------------

  /** The `payments` object: one count per `paymentMethod` string. */
  function CountPayments(acc: Tally.Counter, orders: seq<Order>): Tally.Counter
    decreases |orders|
  {
    if |orders| == 0 then acc else CountPayments(Tally.Bump(acc, orders[0].paymentMethod, 1), orders[1..])
  }

  function PaidWith(m: string): Order -> bool
  {
    (o: Order) => o.paymentMethod == m
  }

  /** The number of orders paid with `m`. */
  function MethodCount(orders: seq<Order>, m: string): nat
  {
    |Seqs.Filter(orders, PaidWith(m))|
  }

  function Methods(orders: seq<Order>): set<string>
  {
    if |orders| == 0 then {} else {orders[0].paymentMethod} + Methods(orders[1..])
  }

  lemma {:induction false} CountPaymentsFacts(acc: Tally.Counter, orders: seq<Order>)
    ensures forall m :: Tally.Get(CountPayments(acc, orders), m) == Tally.Get(acc, m) + MethodCount(orders, m)
    ensures Tally.Keys(CountPayments(acc, orders)) == Tally.Keys(acc) + Methods(orders)
    ensures Tally.UniqueKeys(acc) ==> Tally.UniqueKeys(CountPayments(acc, orders))
    ensures Tally.Total(CountPayments(acc, orders)) == Tally.Total(acc) + |orders|
    decreases |orders|
  {
    if |orders| > 0 {
      CountPaymentsFacts(Tally.Bump(acc, orders[0].paymentMethod, 1), orders[1..]);
    }
  }

  /** A slice of the payment chart. */
  datatype Slice = Slice(name: string, value: int)

  /** `name === "cash" ? "Cash" : "Carte"`: card and mobile payments share
      the label `Carte`. */
  function PaymentLabel(m: string): (r: string)
    ensures r == "Cash" <==> m == "cash"
    ensures r == "Cash" || r == "Carte"
    ensures m == "card" || m == "mobile" ==> r == "Carte"
  {
    if m == "cash" then "Cash" else "Carte"
  }

  function ToSlices(t: Tally.Counter): (r: seq<Slice>)
    ensures |r| == |t|
    ensures forall i :: 0 <= i < |t| ==> r[i] == Slice(PaymentLabel(t[i].key), t[i].count)
  {
    if |t| == 0 then [] else [Slice(PaymentLabel(t[0].key), t[0].count)] + ToSlices(t[1..])
  }

  function SliceTotal(r: seq<Slice>): int
  {
    if |r| == 0 then 0 else r[0].value + SliceTotal(r[1..])
  }

  lemma {:induction false} ToSlicesTotal(t: Tally.Counter)
    ensures SliceTotal(ToSlices(t)) == Tally.Total(t)
  {
    if |t| > 0 {
      ToSlicesTotal(t[1..]);
      assert ToSlices(t)[1..] == ToSlices(t[1..]);
    }
  }

  /** `calculatePayments`: one slice per distinct payment method, in
      first-seen order, valued with the number of orders paid that way and
      labelled "Cash" for `cash` and "Carte" for anything else; the values
      add up to the number of orders. */
  function CalculatePayments(filtered: seq<Order>): (r: seq<Slice>)
    ensures SliceTotal(r) == |filtered|
    ensures |r| == |Methods(filtered)|
    ensures var t := CountPayments([], filtered);
      && |r| == |t|
      && forall i :: 0 <= i < |r| ==> r[i] == Slice(PaymentLabel(t[i].key), MethodCount(filtered, t[i].key))
  {
    var t := CountPayments([], filtered);
    CountPaymentsFacts([], filtered);
    ToSlicesTotal(t);
    Tally.UniqueKeysCount(t);
    forall i | 0 <= i < |t| ensures t[i].count == MethodCount(filtered, t[i].key) {
      Tally.GetOfMember(t, t[i]);
    }
    ToSlices(t)
  }

  /** The methods the payment slices are built from: each distinct method
      of the orders exactly once. */
  lemma {:induction false} PaymentKeys(filtered: seq<Order>)
    ensures var t := CountPayments([], filtered);
      Tally.UniqueKeys(t) && Tally.Keys(t) == Methods(filtered)
  {
    CountPaymentsFacts([], filtered);
  }
}

=== FILE: seqs.dfy ===
/** Generic sequence operations standing in for `Array.prototype.filter` and
    `Array.prototype.reduce((s, x) => s + f(x), 0)`, with the algebra the
    other modules need. */
module Seqs {

  /** The elements of `s` satisfying `p`, in their original order. */
  function Filter<T>(s: seq<T>, p: T -> bool): (r: seq<T>)
    ensures |r| <= |s|
    ensures forall i :: 0 <= i < |r| ==> p(r[i]) && r[i] in s
    ensures forall i :: 0 <= i < |s| && p(s[i]) ==> s[i] in r
    ensures multiset(r) <= multiset(s)
  {
    if |s| == 0 then []
    else
      assert s == [s[0]] + s[1..];
      if p(s[0]) then [s[0]] + Filter(s[1..], p) else Filter(s[1..], p)
  }

  /** The sum of `f` over `s`, folded from the left as `reduce` does. */
  function SumOf<T>(s: seq<T>, f: T -> int): int
  {
    if |s| == 0 then 0 else SumOf(s[..|s| - 1], f) + f(s[|s| - 1])
  }

  /** Filtering distributes over concatenation. */
  lemma {:induction false} FilterAppend<T>(a: seq<T>, b: seq<T>, p: T -> bool)
    ensures Filter(a + b, p) == Filter(a, p) + Filter(b, p)
  {
    if |a| == 0 {
      assert a + b == b;
    } else {
      assert (a + b)[1..] == a[1..] + b;
      FilterAppend(a[1..], b, p);
    }
  }

  /** Summing distributes over concatenation. */
  lemma {:induction false} SumOfAppend<T>(a: seq<T>, b: seq<T>, f: T -> int)
    ensures SumOf(a + b, f) == SumOf(a, f) + SumOf(b, f)
    decreases |b|
  {
    if |b| == 0 {
      assert a + b == a;
    } else {
      var b' := b[..|b| - 1];
      assert (a + b)[..|a + b| - 1] == a + b';
      SumOfAppend(a, b', f);
    }
  }

  /** The sum over a one-element prefix plus the rest, i.e. the fold seen
      from the front. */
  lemma {:induction false} SumOfCons<T>(x: T, s: seq<T>, f: T -> int)
    ensures SumOf([x] + s, f) == f(x) + SumOf(s, f)
  {
    SumOfAppend([x], s, f);
    assert SumOf([x], f) == SumOf([], f) + f(x) by {
      assert [x][..0] == [];
    }
  }

  /** Summing a function that is zero everywhere on `s` gives zero. */
  lemma {:induction false} SumOfZero<T>(s: seq<T>, f: T -> int)
    requires forall i :: 0 <= i < |s| ==> f(s[i]) == 0
    ensures SumOf(s, f) == 0
  {
    if |s| > 0 {
      SumOfZero(s[..|s| - 1], f);
    }
  }

  /** Two functions that agree on every element of `s` have the same sum. */
  lemma {:induction false} SumOfCongruent<T>(s: seq<T>, f: T -> int, g: T -> int)
    requires forall i :: 0 <= i < |s| ==> f(s[i]) == g(s[i])
    ensures SumOf(s, f) == SumOf(s, g)
  {
    if |s| > 0 {
      SumOfCongruent(s[..|s| - 1], f, g);
    }
  }

  /** Two sequences whose elements correspond one for one, with matching
      values, have the same sum. */
  lemma {:induction false} SumOfPointwise<T, U>(s: seq<T>, f: T -> int, t: seq<U>, g: U -> int)
    requires |s| == |t|
    requires forall i :: 0 <= i < |s| ==> f(s[i]) == g(t[i])
    ensures SumOf(s, f) == SumOf(t, g)
  {
    if |s| > 0 {
      SumOfPointwise(s[..|s| - 1], f, t[..|t| - 1], g);
    }
  }

  /** Removing the element at `j` from `t`, split around it. */
  lemma {:induction false} SplitAt<T>(t: seq<T>, j: int)
    requires 0 <= j < |t|
    ensures t == t[..j] + [t[j]] + t[j + 1..]
    ensures multiset(t) == multiset(t[..j] + t[j + 1..]) + multiset{t[j]}
  {
    assert t == t[..j] + [t[j]] + t[j + 1..];
    assert t[..j] + [t[j]] + t[j + 1..] == t[..j] + ([t[j]] + t[j + 1..]);
  }

  /** Taking one element out of a filter's input. */
  lemma {:induction false} FilterRemove<T>(t: seq<T>, j: int, p: T -> bool)
    requires 0 <= j < |t|
    ensures multiset(Filter(t, p))
         == multiset(Filter(t[..j] + t[j + 1..], p)) + (if p(t[j]) then multiset{t[j]} else multiset{})
  {
    SplitAt(t, j);
    FilterAppend(t[..j] + [t[j]], t[j + 1..], p);
    FilterAppend(t[..j], [t[j]], p);
    FilterAppend(t[..j], t[j + 1..], p);
    assert [t[j]][1..] == [];
  }

  /** Taking the first element out of a multiset equal to that of `t`: it
      occurs in `t` at some `j`, and what remains matches `t` without it. */
  lemma {:induction false} MatchFirst<T>(s: seq<T>, t: seq<T>) returns (j: int)
    requires |s| > 0 && multiset(s) == multiset(t)
    ensures 0 <= j < |t| && t[j] == s[0]
    ensures multiset(s[1..]) == multiset(t[..j] + t[j + 1..])
  {
    var x := s[0];
    assert x in multiset(t);
    j :| 0 <= j < |t| && t[j] == x;
    SplitAt(t, j);
    assert s == [x] + s[1..];
    assert multiset(s) == multiset{x} + multiset(s[1..]);
    assert multiset(s[1..]) == multiset(s) - multiset{x};
  }

  /** What a filter keeps depends only on the multiset of its input. */
  lemma {:induction false} FilterPermutation<T>(s: seq<T>, t: seq<T>, p: T -> bool)
    requires multiset(s) == multiset(t)
    ensures multiset(Filter(s, p)) == multiset(Filter(t, p))
    decreases |s|
  {
    if |s| == 0 {
      assert |t| == |multiset(t)| == 0;
    } else {
      var j := MatchFirst(s, t);
      var rest := t[..j] + t[j + 1..];
      FilterPermutation(s[1..], rest, p);
      FilterRemove(t, j, p);
      var head := if p(s[0]) then [s[0]] else [];
      assert Filter(s, p) == head + Filter(s[1..], p);
      assert multiset(Filter(s, p)) == multiset(head) + multiset(Filter(s[1..], p));
    }
  }

  /** Taking one element out of a sum. */
  lemma {:induction false} SumOfRemove<T>(t: seq<T>, j: int, f: T -> int)
    requires 0 <= j < |t|
    ensures SumOf(t, f) == SumOf(t[..j] + t[j + 1..], f) + f(t[j])
  {
    SplitAt(t, j);
    SumOfAppend(t[..j] + [t[j]], t[j + 1..], f);
    SumOfAppend(t[..j], [t[j]], f);
    SumOfAppend(t[..j], t[j + 1..], f);
    assert [t[j]][..0] == [];
  }

  /** A sum depends only on the multiset of the summed elements. */
  lemma {:induction false} SumOfPermutation<T>(s: seq<T>, t: seq<T>, f: T -> int)
    requires multiset(s) == multiset(t)
    ensures SumOf(s, f) == SumOf(t, f)
    decreases |s|
  {
    if |s| == 0 {
      assert |t| == |multiset(t)| == 0;
    } else {
      var j := MatchFirst(s, t);
      SumOfPermutation(s[1..], t[..j] + t[j + 1..], f);
      SumOfCons(s[0], s[1..], f);
      SumOfRemove(t, j, f);
      assert s == [s[0]] + s[1..];
    }
  }

  /** A filter that keeps every element is the identity. */
  lemma {:induction false} FilterAll<T>(s: seq<T>, p: T -> bool)
    requires forall i :: 0 <= i < |s| ==> p(s[i])
    ensures Filter(s, p) == s
  {
    if |s| > 0 {
      FilterAll(s[1..], p);
      assert s == [s[0]] + s[1..];
    }
  }

  /** Filtering twice by the same test is filtering once. */
  lemma {:induction false} FilterIdempotent<T>(s: seq<T>, p: T -> bool)
    ensures Filter(Filter(s, p), p) == Filter(s, p)
  {
    FilterAll(Filter(s, p), p);
  }

  /** A filter that keeps no element gives the empty sequence. */
  lemma {:induction false} FilterNone<T>(s: seq<T>, p: T -> bool)
    requires forall i :: 0 <= i < |s| ==> !p(s[i])
    ensures Filter(s, p) == []
  {
    if |s| > 0 {
      FilterNone(s[1..], p);
    }
  }
}

=== FILE: settings.dfy ===
/** The settings screen: the settings object with its three password fields,
    what is saved and loaded back, and the password-change form. */
module Settings {
  import opened Wrappers

  /** The settings object, field name to value. */
  type Fields = map<string, string>

  const RestaurantName := "restaurantName"
  const CurrentPassword := "currentPassword"
  const NewPassword := "newPassword"
  const ConfirmPassword := "confirmPassword"

  /** The fields that are never written to storage. */
  const PasswordFields: set<string> := {CurrentPassword, NewPassword, ConfirmPassword}

  /** The state the screen starts from. */
  const Defaults: Fields := map[RestaurantName := "Jam-Jem Chapatti", CurrentPassword := "",
                                NewPassword := "", ConfirmPassword := ""]

  /** Reading a field of the object; an absent field reads like the empty
      string, which is all the password checks can tell apart. */
  function Field(s: Fields, name: string): string
  {
    if name in s then s[name] else ""
  }

  // ---------------------------------------------------------------------
  // Editing, saving, loading
  // ---------------------------------------------------------------------

  /** `handleChange(field, value)`: `{ ...settings, [field]: value }`. */
  function HandleChange(s: Fields, field: string, value: string): (r: Fields)
    ensures field in r && r[field] == value
    ensures r.Keys == s.Keys + {field}
    ensures forall k :: k in s && k != field ==> r[k] == s[k]
  {
    s[field := value]
  }

  /** The object `handleSaveSettings` writes: the settings without the three
      password fields. */
  function SettingsToSave(s: Fields): (r: Fields)
    ensures r.Keys !! PasswordFields
    ensures r.Keys == s.Keys - PasswordFields
    ensures forall k :: k in r ==> r[k] == s[k]
  {
    s - PasswordFields
  }

  /** The mount effect: the saved object, when there is one, spread over the
      defaults; saved fields win, the other defaults stay. */
  function Load(saved: Option<Fields>): (r: Fields)
    ensures saved.None? ==> r == Defaults
    ensures saved.Some? ==> r.Keys == Defaults.Keys + saved.value.Keys
    ensures saved.Some? ==> forall k :: k in saved.value ==> r[k] == saved.value[k]
    ensures saved.Some? ==> forall k :: k in Defaults && k !in saved.value ==> r[k] == Defaults[k]
  {
    match saved
    case None => Defaults
    case Some(m) => Defaults + m
  }

  /** Saving and loading back restores every field except the passwords,
      which come back empty. */
  lemma {:induction false} SaveLoadRoundTrip(s: Fields)
    ensures var r := Load(Some(SettingsToSave(s)));
      && (forall k :: k in s && k !in PasswordFields ==> k in r && r[k] == s[k])
      && (forall k :: k in PasswordFields ==> k in r && r[k] == "")
      && RestaurantName in r
  {
    var saved := SettingsToSave(s);
    forall k | k in PasswordFields ensures k !in saved {
    }
  }

  // ---------------------------------------------------------------------
  // Changing the password
  // ---------------------------------------------------------------------

  /** The user record stored at login. */
  datatype User = User(email: string)

  /** The body posted to the change-password endpoint. */
  datatype PasswordRequest = PasswordRequest(email: string, currentPassword: string, newPassword: string)

  /** What the endpoint answers: success, or an error whose `message` may be
      empty or absent (both `""` here). A request that never reaches the
      server is a `Refused("")` as well. */
  datatype Reply = Accepted | Refused(message: string)

  /** How `handlePasswordChange` ends. */
  datatype PasswordOutcome =
    | MissingField
    | Mismatch
    | Changed(request: PasswordRequest)
    | Failed(sent: Option<PasswordRequest>, message: string)
  {
    /** The message the screen shows. */
    function Message(): string
    {
      match this
      case MissingField => "Veuillez remplir tous les champs"
      case Mismatch => "Les mots de passe ne correspondent pas"
      case Changed(_) => "Mot de passe modifié avec succès"
      case Failed(_, message) => if message == "" then "Erreur serveur" else message
    }
  }

  predicate AnyPasswordEmpty(s: Fields)
  {
    Field(s, CurrentPassword) == "" || Field(s, NewPassword) == "" || Field(s, ConfirmPassword) == ""
  }

  /** `handlePasswordChange`. `user` is the stored user (`None` when there is
      none: reading its email throws and the error path shows the default
      message), and `reply` is the server's answer to the request. The fields
      are checked before anything is sent: all three must be non-empty, then
      the new password must equal its confirmation. Only a success clears the
      three password fields. */
  function HandlePasswordChange(s: Fields, user: Option<User>, reply: Reply): (r: (PasswordOutcome, Fields))
    ensures AnyPasswordEmpty(s) <==> r.0.MissingField?
    ensures r.0.Mismatch? <==> (!AnyPasswordEmpty(s) && Field(s, NewPassword) != Field(s, ConfirmPassword))
    ensures r.0.Changed? <==>
      (!AnyPasswordEmpty(s) && Field(s, NewPassword) == Field(s, ConfirmPassword) && user.Some? && reply.Accepted?)
    ensures r.0.Changed? ==>
      r.0.request == PasswordRequest(user.value.email, Field(s, CurrentPassword), Field(s, NewPassword))
    ensures r.0.Failed? ==> (r.0.sent.Some? <==> user.Some?)
    ensures r.0.Failed? && r.0.sent.Some? ==>
      r.0.sent.value == PasswordRequest(user.value.email, Field(s, CurrentPassword), Field(s, NewPassword))
    ensures r.0.Changed? ==>
      && r.1.Keys == s.Keys + PasswordFields
      && (forall k :: k in PasswordFields ==> r.1[k] == "")
      && (forall k :: k in s && k !in PasswordFields ==> r.1[k] == s[k])
    ensures !r.0.Changed? ==> r.1 == s
  {
    if AnyPasswordEmpty(s) then (MissingField, s)
    else if Field(s, NewPassword) != Field(s, ConfirmPassword) then (Mismatch, s)
    else match user
      case None => (Failed(None, ""), s)
      case Some(u) =>
        var req := PasswordRequest(u.email, Field(s, CurrentPassword), Field(s, NewPassword));
        match reply
        case Accepted => (Changed(req), s[CurrentPassword := ""][NewPassword := ""][ConfirmPassword := ""])
        case Refused(message) => (Failed(Some(req), message), s)
  }

  /** After a successful change the form cannot be sent again as it stands:
      the next attempt stops at the empty-field check. The restaurant name
      and everything that is saved are untouched. */
  lemma {:induction false} NoResendAfterChange(s: Fields, user: Option<User>, reply: Reply, user2: Option<User>, reply2: Reply)
    requires HandlePasswordChange(s, user, reply).0.Changed?
    ensures var s' := HandlePasswordChange(s, user, reply).1;
      && HandlePasswordChange(s', user2, reply2).0 == MissingField
      && Field(s', RestaurantName) == Field(s, RestaurantName)
      && SettingsToSave(s') == SettingsToSave(s)
  {
    var s' := HandlePasswordChange(s, user, reply).1;
    assert Field(s', CurrentPassword) == "";
    assert SettingsToSave(s').Keys == SettingsToSave(s).Keys;
  }

  /** The message shown for each situation: the empty-field message whenever
      a field is empty, even if the two new passwords also differ; the
      mismatch message only once all three are filled in; the server's own
      error message when it gave one, "Erreur serveur" otherwise. */
  lemma {:induction false} ShownMessage(s: Fields, user: Option<User>, reply: Reply)
    ensures var m := HandlePasswordChange(s, user, reply).0.Message();
      && (AnyPasswordEmpty(s) ==> m == "Veuillez remplir tous les champs")
      && (!AnyPasswordEmpty(s) && Field(s, NewPassword) != Field(s, ConfirmPassword) ==>
            m == "Les mots de passe ne correspondent pas")
      && (!AnyPasswordEmpty(s) && Field(s, NewPassword) == Field(s, ConfirmPassword) ==>
            m == match (user, reply)
                 case (Some(_), Accepted) => "Mot de passe modifié avec succès"
                 case (Some(_), Refused(msg)) => if msg == "" then "Erreur serveur" else msg
                 case (None, _) => "Erreur serveur")
  {
  }
}

=== FILE: statistics.dfy ===
/** The statistics screen: the period filter over the fetched orders, the
    summary counters, and the seven-day revenue chart, with the clock `now`
    and the local calendar passed in. The product and payment rankings are
    in `Popularity`. */
module Statistics {
  import opened Wrappers
  import opened Orders
  import Seqs
  import Tally
  import Popularity

  // ---------------------------------------------------------------------
  // The period filter
  // ---------------------------------------------------------------------

  /** The period state: the four tabs (`today`, `week`, `month`, `total`)
      and `day`, set by the date input. */
  datatype Period = Today | Week | Month | AllTime | Day

  /** `7 * 24 * 60 * 60 * 1000`. */
  const WeekMs: int := 7 * 24 * 60 * 60 * 1000

  /** The `startDate` of the else branch, as the number `>=` compares with:
      local midnight today, exactly seven days before `now`, local midnight
      on the first of this month, and 0 (`null`) for `day` without a date. */
  function StartOf(period: Period, now: Timestamp, cal: Calendar): Timestamp
  {
    var today := DateOf(cal, now);
    match period
    case Today => cal.midnight(today)
    case Week => now - WeekMs
    case Month => cal.midnight(Date(today.year, today.month, 1))
    case _ => 0
  }

  function OnDay(cal: Calendar, selected: Timestamp): Order -> bool
  {
    (o: Order) => SameDay(cal, o.createdAt, selected)
  }

  function Since(start: Timestamp): Order -> bool
  {
    (o: Order) => o.createdAt >= start
  }

  /** `applyPeriodFilter`. `selected` is the instant `new Date(selectedDate)`
      yields, `None` while the date input is empty. */
  function ApplyPeriodFilter(orders: seq<Order>, period: Period, selected: Option<Timestamp>,
                             now: Timestamp, cal: Calendar): (r: seq<Order>)
    ensures multiset(r) <= multiset(orders)
    ensures period == AllTime ==> r == orders
    ensures period == Day && selected.Some? ==>
      forall o :: o in orders ==> (o in r <==> DateOf(cal, o.createdAt) == DateOf(cal, selected.value))
    ensures period == Today ==>
      forall o :: o in orders ==> (o in r <==> o.createdAt >= cal.midnight(DateOf(cal, now)))
    ensures period == Week ==>
      forall o :: o in orders ==> (o in r <==> o.createdAt >= now - 604800000)
    ensures period == Month ==>
      forall o :: o in orders ==>
        (o in r <==> o.createdAt >= cal.midnight(Date(DateOf(cal, now).year, DateOf(cal, now).month, 1)))
    ensures period == Day && selected.None? ==>
      forall o :: o in orders ==> (o in r <==> o.createdAt >= 0)
  {
    if period == Day && selected.Some? then Seqs.Filter(orders, OnDay(cal, selected.value))
    else if period == AllTime then orders
    else Seqs.Filter(orders, Since(StartOf(period, now, cal)))
  }

  /** Filtering an already filtered list again by the same period and clock
      changes nothing. */
  lemma {:induction false} PeriodFilterIdempotent(orders: seq<Order>, period: Period, selected: Option<Timestamp>,
                               now: Timestamp, cal: Calendar)
    ensures var r := ApplyPeriodFilter(orders, period, selected, now, cal);
      ApplyPeriodFilter(r, period, selected, now, cal) == r
  {
    if period == Day && selected.Some? {
      Seqs.FilterIdempotent(orders, OnDay(cal, selected.value));
    } else if period != AllTime {
      Seqs.FilterIdempotent(orders, Since(StartOf(period, now, cal)));
    }
  }

  /** Orders arriving later are filtered on their own: the filter of a
      concatenation is the concatenation of the filters. */
  lemma {:induction false} PeriodFilterAppend(a: seq<Order>, b: seq<Order>, period: Period, selected: Option<Timestamp>,
                           now: Timestamp, cal: Calendar)
    ensures ApplyPeriodFilter(a + b, period, selected, now, cal)
         == ApplyPeriodFilter(a, period, selected, now, cal) + ApplyPeriodFilter(b, period, selected, now, cal)
  {
    if period == Day && selected.Some? {
      Seqs.FilterAppend(a, b, OnDay(cal, selected.value));
    } else if period != AllTime {
      Seqs.FilterAppend(a, b, Since(StartOf(period, now, cal)));
    }
  }

  /** The date input's `onChange`: a chosen date switches to `day`, clearing
      the input goes back to `today`. */
  function PickDate(value: Option<Timestamp>): (r: (Period, Option<Timestamp>))
    ensures r.0 == Day <==> value.Some?
    ensures r.0 != Day ==> r.0 == Today
    ensures r.1 == value
  {
    if value.Some? then (Day, value) else (Today, value)
  }

  /** After the first date input of the screen (the one whose `onChange`
      also sets the period), the period is never `day` without a date, so the
      `null` start of the else branch is not reached from it. The second date
      input only sets the date and is not modelled. */
  lemma {:induction false} PickDateHasDate(value: Option<Timestamp>)
    ensures var (period, selected) := PickDate(value); period == Day ==> selected.Some?
  {
  }

  // ---------------------------------------------------------------------
  // Summary counters
  // ---------------------------------------------------------------------

  /** The `stats` state. */
  datatype Stats = Stats(orders: nat, revenue: int, completed: nat, pending: nat, cancelled: nat)

  function HasStatus(status: string): Order -> bool
  {
    (o: Order) => o.status == status
  }

  /** `filteredOrders.filter((o) => o.status === status).length`. */
  function StatusCount(orders: seq<Order>, status: string): nat
  {
    |Seqs.Filter(orders, HasStatus(status))|
  }

  /** `calculateStats`: the counters are the number of orders, the sum of
      their totals, and the number of orders whose status is literally
      `completed`, `pending` or `cancelled`. */
  function CalculateStats(filtered: seq<Order>): (r: Stats)
    ensures r.orders == |filtered|
    ensures r.completed + r.pending + r.cancelled <= r.orders
    ensures |filtered| == 0 ==> r == Stats(0, 0, 0, 0, 0)
  {
    StatusCountsBounded(filtered);
    Stats(|filtered|, Revenue(filtered), StatusCount(filtered, "completed"),
          StatusCount(filtered, "pending"), StatusCount(filtered, "cancelled"))
  }

  /** The three status counters are disjoint, so they add up to at most the
      number of orders. */
  lemma {:induction false} StatusCountsBounded(s: seq<Order>)
    ensures StatusCount(s, "completed") + StatusCount(s, "pending") + StatusCount(s, "cancelled") <= |s|
  {
    if |s| > 0 {
      StatusCountsBounded(s[1..]);
    }
  }

  /** What one more order does to the counters: the count grows by one, the
      revenue by its total, and exactly the counter named by its status, if
      any, by one; `preparing`, `ready` and `delivered` orders, like any other
      status, are counted in none of the three. */
  lemma {:induction false} StatsAppend(filtered: seq<Order>, o: Order)
    ensures var before := CalculateStats(filtered);
      CalculateStats(filtered + [o]) == Stats(
        before.orders + 1,
        before.revenue + o.totalAmount,
        before.completed + (if o.status == "completed" then 1 else 0),
        before.pending + (if o.status == "pending" then 1 else 0),
        before.cancelled + (if o.status == "cancelled" then 1 else 0))
  {
    StatusCountSnoc(filtered, o, "completed");
    StatusCountSnoc(filtered, o, "pending");
    StatusCountSnoc(filtered, o, "cancelled");
    RevenueSnoc(filtered, o);
  }

  lemma {:induction false} StatusCountSnoc(s: seq<Order>, o: Order, status: string)
    ensures StatusCount(s + [o], status) == StatusCount(s, status) + (if o.status == status then 1 else 0)
  {
    Seqs.FilterAppend(s, [o], HasStatus(status));
    assert [o][1..] == [];
  }

  lemma {:induction false} RevenueSnoc(s: seq<Order>, o: Order)
    ensures Revenue(s + [o]) == Revenue(s) + o.totalAmount
  {
    Seqs.SumOfAppend(s, [o], AmountOf);
    assert [o][..0] == [];
  }

  /** The counters depend only on which orders were fetched, not on the
      order the back end listed them in. */
  lemma {:induction false} StatsPermutation(a: seq<Order>, b: seq<Order>)
    requires multiset(a) == multiset(b)
    ensures CalculateStats(a) == CalculateStats(b)
  {
    assert |a| == |multiset(a)| == |multiset(b)| == |b|;
    Seqs.SumOfPermutation(a, b, AmountOf);
    var statuses := ["completed", "pending", "cancelled"];
    forall k | 0 <= k < 3 ensures StatusCount(a, statuses[k]) == StatusCount(b, statuses[k]) {
      var p := HasStatus(statuses[k]);
      Seqs.FilterPermutation(a, b, p);
      assert |Seqs.Filter(a, p)| == |multiset(Seqs.Filter(a, p))| == |multiset(Seqs.Filter(b, p))|
          == |Seqs.Filter(b, p)|;
    }
    assert statuses[0] == "completed" && statuses[1] == "pending" && statuses[2] == "cancelled";
  }

  // ---------------------------------------------------------------------
  // Seven-day revenue chart
  // ---------------------------------------------------------------------

  /** One bar of the chart: the day, and its revenue in minor units. */
  datatype DayRevenue = DayRevenue(date: Date, revenue: int)

  /** `date.setDate(date.getDate() - back)` on a fresh `new Date()`: the
      local day `back` days before today. */
  function BucketDate(cal: Calendar, now: Timestamp, back: int): Date
  {
    cal.civil(cal.localDay(now) - back)
  }

  /** The chart's days, oldest first: six days ago through today. */
  function Window(cal: Calendar, now: Timestamp): (r: seq<Date>)
    ensures |r| == 7
    ensures r[6] == DateOf(cal, now)
  {
    seq(7, k => BucketDate(cal, now, 6 - k))
  }

  function OnDate(cal: Calendar, d: Date): Order -> bool
  {
    (o: Order) => DateOf(cal, o.createdAt) == d
  }

  /** The revenue of the orders whose local date is `d`. */
  function RevenueOn(orders: seq<Order>, cal: Calendar, d: Date): int
  {
    Revenue(Seqs.Filter(orders, OnDate(cal, d)))
  }

  /** Extending the orders by one adds its total to the revenue of its own
      day only. */
  lemma {:induction false} RevenueOnSnoc(s: seq<Order>, x: Order, cal: Calendar, d: Date)
    ensures RevenueOn(s + [x], cal, d)
         == RevenueOn(s, cal, d) + (if DateOf(cal, x.createdAt) == d then x.totalAmount else 0)
  {
    Seqs.FilterAppend(s, [x], OnDate(cal, d));
    var tail := Seqs.Filter([x], OnDate(cal, d));
    Seqs.SumOfAppend(Seqs.Filter(s, OnDate(cal, d)), tail, AmountOf);
    assert [x][1..] == [];
    if DateOf(cal, x.createdAt) == d {
      assert tail == [x];
      assert tail[..0] == [];
    }
  }

  /** The bar for the day `back` days before today. */
  function Bar(filtered: seq<Order>, now: Timestamp, cal: Calendar, back: int): DayRevenue
  {
    var date := BucketDate(cal, now, back);
    DayRevenue(date, RevenueOn(filtered, cal, date))
  }

  /** `calculateRevenueChart`: always seven bars, oldest first and ending on
      today, whatever the period; each bar holds the revenue of the filtered
      orders dated that day; no orders give seven zeros. */
  method CalculateRevenueChart(filtered: seq<Order>, now: Timestamp, cal: Calendar)
    returns (days: seq<DayRevenue>)
    ensures |days| == 7
    ensures forall k :: 0 <= k < 7 ==> days[k].date == Window(cal, now)[k]
    ensures days[6].date == DateOf(cal, now)
    ensures forall k :: 0 <= k < 7 ==> days[k].revenue == RevenueOn(filtered, cal, days[k].date)
    ensures |filtered| == 0 ==> forall k :: 0 <= k < 7 ==> days[k].revenue == 0
  {
    days := Bars(filtered, now, cal);
    BarsFacts(days, filtered, now, cal);
  }

  /** The loop of `calculateRevenueChart`, from six days back to today. */
  method Bars(filtered: seq<Order>, now: Timestamp, cal: Calendar) returns (days: seq<DayRevenue>)
    ensures |days| == 7
    ensures forall k :: 0 <= k < 7 ==> days[k] == Bar(filtered, now, cal, 6 - k)
  {
    days := [];
    var i := 6;
    while i >= 0
      invariant -1 <= i <= 6
      invariant |days| == 6 - i
      invariant forall k :: 0 <= k < |days| ==> days[k] == Bar(filtered, now, cal, 6 - k)
    {
      var date := BucketDate(cal, now, i);
      var total := DayTotal(filtered, cal, date);
      var bar := DayRevenue(date, total);
      assert bar == Bar(filtered, now, cal, i);
      days := days + [bar];
      i := i - 1;
    }
  }

  lemma {:induction false} BarsFacts(days: seq<DayRevenue>, filtered: seq<Order>, now: Timestamp, cal: Calendar)
    requires |days| == 7
    requires forall k :: 0 <= k < 7 ==> days[k] == Bar(filtered, now, cal, 6 - k)
    ensures forall k :: 0 <= k < 7 ==> days[k].date == Window(cal, now)[k]
    ensures days[6].date == DateOf(cal, now)
    ensures forall k :: 0 <= k < 7 ==> days[k].revenue == RevenueOn(filtered, cal, days[k].date)
    ensures |filtered| == 0 ==> forall k :: 0 <= k < 7 ==> days[k].revenue == 0
  {
    var window := Window(cal, now);
    assert forall k :: 0 <= k < 7 ==> window[k] == BucketDate(cal, now, 6 - k);
    if |filtered| == 0 {
      forall k | 0 <= k < 7 ensures days[k].revenue == 0 {
        assert Seqs.Filter(filtered, OnDate(cal, days[k].date)) == [];
      }
    }
  }

  /** The `filter(...).reduce(...)` of one bar. */
  method DayTotal(filtered: seq<Order>, cal: Calendar, date: Date) returns (total: int)
    ensures total == RevenueOn(filtered, cal, date)
  {
    total := 0;
    var j := 0;
    while j < |filtered|
      invariant 0 <= j <= |filtered|
      invariant total == RevenueOn(filtered[..j], cal, date)
    {
      RevenueOnSnoc(filtered[..j], filtered[j], cal, date);
      assert filtered[..j + 1] == filtered[..j] + [filtered[j]];
      if DateOf(cal, filtered[j].createdAt) == date {
        total := total + filtered[j].totalAmount;
      }
      j := j + 1;
    }
    assert filtered[..j] == filtered;
  }

  /** The sum of the bars. */
  function ChartTotal(days: seq<DayRevenue>): int
  {
    if |days| == 0 then 0 else days[0].revenue + ChartTotal(days[1..])
  }

  predicate Distinct(dates: seq<Date>)
  {
    forall a, b :: 0 <= a < b < |dates| ==> dates[a] != dates[b]
  }

  function InDates(cal: Calendar, dates: seq<Date>): Order -> bool
  {
    (o: Order) => DateOf(cal, o.createdAt) in dates
  }

  /** The revenue of `s` summed day by day over `dates`. */
  function BucketsSum(s: seq<Order>, cal: Calendar, dates: seq<Date>): int
  {
    if |dates| == 0 then 0 else RevenueOn(s, cal, dates[0]) + BucketsSum(s, cal, dates[1..])
  }

  /** What order `x` adds to the day-by-day sum. */
  function Share(x: Order, cal: Calendar, dates: seq<Date>): int
  {
    if |dates| == 0 then 0
    else (if DateOf(cal, x.createdAt) == dates[0] then x.totalAmount else 0) + Share(x, cal, dates[1..])
  }

  lemma {:induction false} BucketsSumSnoc(s: seq<Order>, x: Order, cal: Calendar, dates: seq<Date>)
    ensures BucketsSum(s + [x], cal, dates) == BucketsSum(s, cal, dates) + Share(x, cal, dates)
  {
    if |dates| > 0 {
      RevenueOnSnoc(s, x, cal, dates[0]);
      BucketsSumSnoc(s, x, cal, dates[1..]);
    }
  }

  /** Over distinct days an order is counted at most once: in its own day's
      bar when that day is shown, nowhere otherwise. */
  lemma {:induction false} ShareOnce(x: Order, cal: Calendar, dates: seq<Date>)
    requires Distinct(dates)
    ensures Share(x, cal, dates) == if DateOf(cal, x.createdAt) in dates then x.totalAmount else 0
  {
    if |dates| > 0 {
      ShareOnce(x, cal, dates[1..]);
      if DateOf(cal, x.createdAt) == dates[0] {
        assert dates[0] !in dates[1..];
      }
    }
  }

  /** Summed over distinct days, the per-day revenues are the revenue of the
      orders falling on one of those days. */
  lemma {:induction false} BucketsSumIsWindowRevenue(s: seq<Order>, cal: Calendar, dates: seq<Date>)
    requires Distinct(dates)
    ensures BucketsSum(s, cal, dates) == Revenue(Seqs.Filter(s, InDates(cal, dates)))
    decreases |s|
  {
    if |s| == 0 {
      BucketsSumZero(cal, dates);
    } else {
      var init, x := s[..|s| - 1], s[|s| - 1];
      assert s == init + [x];
      BucketsSumIsWindowRevenue(init, cal, dates);
      BucketsSumSnoc(init, x, cal, dates);
      ShareOnce(x, cal, dates);
      Seqs.FilterAppend(init, [x], InDates(cal, dates));
      Seqs.SumOfAppend(Seqs.Filter(init, InDates(cal, dates)), Seqs.Filter([x], InDates(cal, dates)), AmountOf);
      assert [x][1..] == [];
      assert [x][..0] == [];
    }
  }

  lemma {:induction false} BucketsSumZero(cal: Calendar, dates: seq<Date>)
    ensures BucketsSum([], cal, dates) == 0
  {
    if |dates| > 0 {
      BucketsSumZero(cal, dates[1..]);
    }
  }

  lemma {:induction false} ChartTotalIsBucketsSum(days: seq<DayRevenue>, s: seq<Order>, cal: Calendar, dates: seq<Date>)
    requires |days| == |dates|
    requires forall k :: 0 <= k < |days| ==> days[k] == DayRevenue(dates[k], RevenueOn(s, cal, dates[k]))
    ensures ChartTotal(days) == BucketsSum(s, cal, dates)
  {
    if |days| > 0 {
      ChartTotalIsBucketsSum(days[1..], s, cal, dates[1..]);
    }
  }

  /** When the calendar names the seven days of the window distinctly, the
      bars add up to the revenue of the filtered orders dated within the
      window: no order is counted twice. */
  lemma {:induction false} ChartTotalIsWindowRevenue(days: seq<DayRevenue>, filtered: seq<Order>, now: Timestamp, cal: Calendar)
    requires |days| == 7
    requires forall k :: 0 <= k < 7 ==> days[k].date == Window(cal, now)[k]
    requires forall k :: 0 <= k < 7 ==> days[k].revenue == RevenueOn(filtered, cal, days[k].date)
    requires Distinct(Window(cal, now))
    ensures ChartTotal(days) == Revenue(Seqs.Filter(filtered, InDates(cal, Window(cal, now))))
  {
    ChartTotalIsBucketsSum(days, filtered, cal, Window(cal, now));
    BucketsSumIsWindowRevenue(filtered, cal, Window(cal, now));
  }

  /** When every filtered order is dated today (as with the `today` period
      and no order from the future), today's bar equals the revenue card. */
  lemma {:induction false} TodayBarMatchesRevenue(days: seq<DayRevenue>, filtered: seq<Order>, now: Timestamp, cal: Calendar)
    requires |days| == 7 && days[6].date == DateOf(cal, now)
    requires days[6].revenue == RevenueOn(filtered, cal, days[6].date)
    requires forall i :: 0 <= i < |filtered| ==> SameDay(cal, filtered[i].createdAt, now)
    ensures days[6].revenue == CalculateStats(filtered).revenue
  {
    Seqs.FilterAll(filtered, OnDate(cal, DateOf(cal, now)));
  }

  // ---------------------------------------------------------------------
  // Everything the screen derives from one period choice
  // ---------------------------------------------------------------------

  datatype Dashboard = Dashboard(
    stats: Stats,
    products: seq<Tally.Entry>,
    payments: seq<Popularity.Slice>,
    chart: seq<DayRevenue>)

  /** `applyPeriodFilter` followed by the four calculations on the same
      filtered list. `tag` is the translated word for "supplement". */
  method Refresh(orders: seq<Order>, period: Period, selected: Option<Timestamp>,
                 now: Timestamp, cal: Calendar, tag: string)
    returns (d: Dashboard)
    ensures var filtered := ApplyPeriodFilter(orders, period, selected, now, cal);
      && d.stats == CalculateStats(filtered)
      && d.products == Popularity.CalculateProducts(filtered, tag)
      && d.payments == Popularity.CalculatePayments(filtered)
      && |d.chart| == 7
      && (forall k :: 0 <= k < 7 ==> d.chart[k].date == Window(cal, now)[k])
      && (forall k :: 0 <= k < 7 ==> d.chart[k].revenue == RevenueOn(filtered, cal, d.chart[k].date))
    ensures Popularity.SliceTotal(d.payments) == d.stats.orders
  {
    var filtered := ApplyPeriodFilter(orders, period, selected, now, cal);
    var chart := CalculateRevenueChart(filtered, now, cal);
    d := Dashboard(CalculateStats(filtered), Popularity.CalculateProducts(filtered, tag),
                   Popularity.CalculatePayments(filtered), chart);
  }

  /** With no negative totals and distinct window days, the bars never add
      up to more than the revenue card. */
  lemma {:induction false} ChartAtMostRevenue(days: seq<DayRevenue>, filtered: seq<Order>, now: Timestamp, cal: Calendar)
    requires |days| == 7
    requires forall k :: 0 <= k < 7 ==> days[k].date == Window(cal, now)[k]
    requires forall k :: 0 <= k < 7 ==> days[k].revenue == RevenueOn(filtered, cal, days[k].date)
    requires Distinct(Window(cal, now))
    requires forall i :: 0 <= i < |filtered| ==> filtered[i].totalAmount >= 0
    ensures ChartTotal(days) <= CalculateStats(filtered).revenue
  {
    ChartTotalIsWindowRevenue(days, filtered, now, cal);
    WindowRevenueAtMostRevenue(filtered, InDates(cal, Window(cal, now)));
  }

  /** With no negative totals, the revenue of any sub-selection is at most
      the revenue of all. */
  lemma {:induction false} WindowRevenueAtMostRevenue(s: seq<Order>, p: Order -> bool)
    requires forall i :: 0 <= i < |s| ==> s[i].totalAmount >= 0
    ensures Revenue(Seqs.Filter(s, p)) <= Revenue(s)
    decreases |s|
  {
    if |s| > 0 {
      var init, x := s[..|s| - 1], s[|s| - 1];
      assert s == init + [x];
      WindowRevenueAtMostRevenue(init, p);
      Seqs.FilterAppend(init, [x], p);
      Seqs.SumOfAppend(Seqs.Filter(init, p), Seqs.Filter([x], p), AmountOf);
      assert [x][1..] == [];
      assert [x][..0] == [];
    }
  }
}

=== FILE: tally.dfy ===
/** A JavaScript object used as a counter, `acc[key] = (acc[key] || 0) + n`.
    Such an object enumerates its (non-numeric) keys in insertion order, so it
    is modelled as a sequence of entries: bumping an existing key changes its
    entry in place, bumping a new key appends an entry. */
module Tally {

  /** One key of the counter object and its value. */
  datatype Entry = Entry(key: string, count: int)

  type Counter = seq<Entry>

  /** The object's key set. */
  function Keys(t: Counter): set<string>
  {
    if |t| == 0 then {} else {t[0].key} + Keys(t[1..])
  }

  /** No key appears twice, as in any object. */
  predicate UniqueKeys(t: Counter)
  {
    |t| == 0 || (t[0].key !in Keys(t[1..]) && UniqueKeys(t[1..]))
  }

  /** `acc[key] || 0`: the first entry's count, 0 when the key is absent. */
  function Get(t: Counter, key: string): int
  {
    if |t| == 0 then 0
    else if t[0].key == key then t[0].count
    else Get(t[1..], key)
  }

  /** The position of the first entry for `key`. */
  function IndexOf(t: Counter, key: string): (j: nat)
    requires key in Keys(t)
    ensures j < |t| && t[j].key == key
    ensures forall i :: 0 <= i < j ==> t[i].key != key
  {
    if t[0].key == key then 0 else 1 + IndexOf(t[1..], key)
  }

  /** The sum of all counts. */
  function Total(t: Counter): int
  {
    if |t| == 0 then 0 else t[0].count + Total(t[1..])
  }

  lemma {:induction false} KeysMembers(t: Counter, key: string)
    ensures key in Keys(t) <==> exists i :: 0 <= i < |t| && t[i].key == key
  {
    if |t| > 0 {
      KeysMembers(t[1..], key);
      if key in Keys(t[1..]) {
        var i :| 0 <= i < |t[1..]| && t[1..][i].key == key;
        assert t[i + 1].key == key;
      }
      if exists i :: 0 <= i < |t| && t[i].key == key {
        var i :| 0 <= i < |t| && t[i].key == key;
        if i > 0 { assert t[1..][i - 1].key == key; }
      }
    }
  }

  /** An absent key reads as 0. */
  lemma {:induction false} GetAbsent(t: Counter, key: string)
    requires key !in Keys(t)
    ensures Get(t, key) == 0
  {
    if |t| > 0 {
      GetAbsent(t[1..], key);
    }
  }

  /** With unique keys, every entry's count is what `Get` reads for its key. */
  lemma {:induction false} GetOfMember(t: Counter, e: Entry)
    requires UniqueKeys(t) && e in t
    ensures Get(t, e.key) == e.count
  {
    if t[0] != e {
      assert e in t[1..];
      KeysMembers(t[1..], e.key);
      GetOfMember(t[1..], e);
    }
  }

  /** `acc[key] = (acc[key] || 0) + n`. The key's value grows by `n`, every
      other key keeps its value, the key set gains `key`, entries keep their
      order, and the counts' sum grows by `n`. */
  function Bump(t: Counter, key: string, n: int): (r: Counter)
    ensures Get(r, key) == Get(t, key) + n
    ensures forall k :: k != key ==> Get(r, k) == Get(t, k)
    ensures Keys(r) == Keys(t) + {key}
    ensures UniqueKeys(t) ==> UniqueKeys(r)
    ensures Total(r) == Total(t) + n
    ensures key in Keys(t) ==> |r| == |t|
    ensures key !in Keys(t) ==> r == t + [Entry(key, n)]
    ensures forall i :: 0 <= i < |r| && r[i].key != key ==> r[i] in t
  {
    if |t| == 0 then [Entry(key, n)]
    else if t[0].key == key then
      assert Keys(t) == {key} + Keys(t[1..]);
      [Entry(key, t[0].count + n)] + t[1..]
    else
      var rest := Bump(t[1..], key, n);
      assert ([t[0]] + rest)[1..] == rest;
      assert key !in Keys(t) ==> t == [t[0]] + t[1..];
      [t[0]] + rest
  }

  /** With unique keys there are exactly as many keys as entries. */
  lemma {:induction false} UniqueKeysCount(t: Counter)
    requires UniqueKeys(t)
    ensures |Keys(t)| == |t|
  {
    if |t| > 0 {
      UniqueKeysCount(t[1..]);
    }
  }

  /** Bumping a key already present rewrites its first entry in place:
      every other entry keeps its position. */
  lemma {:induction false} BumpInPlace(t: Counter, key: string, n: int)
    requires key in Keys(t)
    ensures var j, r := IndexOf(t, key), Bump(t, key, n);
      |r| == |t| && r[j] == Entry(key, t[j].count + n) &&
      forall i :: 0 <= i < |t| && i != j ==> r[i] == t[i]
  {
    if t[0].key != key {
      BumpInPlace(t[1..], key, n);
      assert Bump(t, key, n) == [t[0]] + Bump(t[1..], key, n);
    }
  }
}

=== FILE: text.dfy ===
/** String helpers standing in for the JavaScript built-ins the order history
    and statistics screens use: `toLowerCase`, `includes`, `join` and the
    decimal rendering of an integer inside a template literal. */
module Text {
  import opened Wrappers
  import Seqs

  // ---------------------------------------------------------------------
  // Lower-casing
  // ---------------------------------------------------------------------

  function LowerChar(c: char): char
  {
    if 'A' <= c <= 'Z' then (c as int + 32) as char else c
  }

  /** `s.toLowerCase()` on the ASCII letters. */
  function Lower(s: string): (r: string)
    ensures |r| == |s|
    ensures forall i :: 0 <= i < |s| ==> r[i] == LowerChar(s[i])
  {
    if |s| == 0 then "" else [LowerChar(s[0])] + Lower(s[1..])
  }

  /** Lower-casing is idempotent, so lower-casing both sides of a search a
      second time changes nothing. */
  lemma {:induction false} LowerIdempotent(s: string)
    ensures Lower(Lower(s)) == Lower(s)
  {
    assert forall i :: 0 <= i < |s| ==> LowerChar(LowerChar(s[i])) == LowerChar(s[i]);
  }

  // ---------------------------------------------------------------------
  // Substring search
  // ---------------------------------------------------------------------

  predicate OccursAt(hay: string, needle: string, i: int)
  {
    0 <= i && i + |needle| <= |hay| && hay[i..i + |needle|] == needle
  }

  /** Declarative substring relation: `needle` occurs somewhere in `hay`. */
  predicate Contains(hay: string, needle: string)
  {
    exists i | 0 <= i <= |hay| :: OccursAt(hay, needle, i)
  }

  /** `hay.includes(needle)`, as a left-to-right scan. */
  function Includes(hay: string, needle: string): (r: bool)
    ensures r <==> Contains(hay, needle)
    decreases |hay|
  {
    if |needle| > |hay| then
      assert forall i | 0 <= i <= |hay| :: !OccursAt(hay, needle, i);
      false
    else if hay[..|needle|] == needle then
      assert OccursAt(hay, needle, 0);
      true
    else
      var rest := Includes(hay[1..], needle);
      assert rest ==> Contains(hay, needle) by {
        if rest {
          var i :| 0 <= i <= |hay[1..]| && OccursAt(hay[1..], needle, i);
          assert hay[i + 1..i + 1 + |needle|] == hay[1..][i..i + |needle|];
          assert OccursAt(hay, needle, i + 1);
        }
      }
      assert Contains(hay, needle) ==> rest by {
        if Contains(hay, needle) {
          var i :| 0 <= i <= |hay| && OccursAt(hay, needle, i);
          assert i != 0;
          assert hay[1..][i - 1..i - 1 + |needle|] == hay[i..i + |needle|];
          assert OccursAt(hay[1..], needle, i - 1);
        }
      }
      rest
  }

  /** Every string includes the empty string. */
  lemma {:induction false} IncludesEmpty(hay: string)
    ensures Includes(hay, "")
  {
    assert OccursAt(hay, "", 0);
  }

  // ---------------------------------------------------------------------
  // Joining
  // ---------------------------------------------------------------------

  /** `parts.join(sep)`: the empty array joins to the empty string. */
  function Join(sep: string, parts: seq<string>): string
  {
    if |parts| == 0 then ""
    else if |parts| == 1 then parts[0]
    else parts[0] + sep + Join(sep, parts[1..])
  }

  function Len(s: string): int { |s| }

  /** A non-empty join is as long as its parts plus one separator between
      each neighbouring pair. */
  lemma {:induction false} JoinLength(sep: string, parts: seq<string>)
    requires |parts| >= 1
    ensures |Join(sep, parts)| == Seqs.SumOf(parts, Len) + |sep| * (|parts| - 1)
  {
    if |parts| == 1 {
      assert parts[..0] == [];
    } else {
      JoinLength(sep, parts[1..]);
      assert parts == [parts[0]] + parts[1..];
      Seqs.SumOfCons(parts[0], parts[1..], Len);
    }
  }

  // ---------------------------------------------------------------------
  // Decimal rendering of integers
  // ---------------------------------------------------------------------

  predicate IsDigit(c: char) { '0' <= c <= '9' }

  predicate AllDigits(s: string)
  {
    forall i :: 0 <= i < |s| ==> IsDigit(s[i])
  }

  function DigitChar(d: int): (c: char)
    requires 0 <= d < 10
    ensures IsDigit(c)
  {
    (48 + d) as char
  }

  function DigitValue(c: char): int
    requires IsDigit(c)
  {
    c as int - 48
  }

  /** Decimal digits of a natural number, most significant first, without
      leading zeros. */
  function NatToString(n: nat): (r: string)
    ensures |r| >= 1 && AllDigits(r)
    ensures |r| > 1 ==> r[0] != '0'
    decreases n
  {
    if n < 10 then [DigitChar(n)] else NatToString(n / 10) + [DigitChar(n % 10)]
  }

  /** `${n}` for an integer `n`: a minus sign in front of negative values. */
  function IntToString(n: int): string
  {
    if n < 0 then "-" + NatToString(-n) else NatToString(n)
  }

  function DigitsValue(s: string): nat
    requires AllDigits(s)
  {
    if |s| == 0 then 0 else DigitsValue(s[..|s| - 1]) * 10 + DigitValue(s[|s| - 1])
  }

  /** Reads back an optionally signed decimal integer; anything else is
      `None`. */
  function ParseInt(s: string): Option<int>
  {
    if |s| >= 2 && s[0] == '-' && AllDigits(s[1..]) then Some(-(DigitsValue(s[1..]) as int))
    else if |s| >= 1 && AllDigits(s) then Some(DigitsValue(s))
    else None
  }

  lemma {:induction false} NatToStringValue(n: nat)
    ensures DigitsValue(NatToString(n)) == n
    decreases n
  {
    if n >= 10 {
      NatToStringValue(n / 10);
      var s := NatToString(n);
      assert s[..|s| - 1] == NatToString(n / 10);
    }
  }

  /** The decimal rendering of an integer reads back as that integer. */
  lemma {:induction false} IntToStringRoundTrip(n: int)
    ensures ParseInt(IntToString(n)) == Some(n)
  {
    var s := IntToString(n);
    if n < 0 {
      NatToStringValue(-n);
      assert s[1..] == NatToString(-n);
    } else {
      NatToStringValue(n);
      assert IsDigit(s[0]);
    }
  }

  /** The rendering of an integer never contains `c` unless `c` is a digit or
      the minus sign; used to find where a rendered number ends. */
  lemma {:induction false} IntToStringChars(n: int, c: char)
    requires !IsDigit(c) && c != '-'
    ensures c !in IntToString(n)
  {
  }
}

=== FILE: wrappers.dfy ===
/** The optional-value datatype used wherever the JavaScript code tests a value
    for `null`/`undefined` (no selected product, no selected date, a lookup that
    found nothing, a request that was never sent). */
module Wrappers {

  datatype Option<+T> = None | Some(value: T) {

    /** The value if present, `default` otherwise (the JavaScript `x || d`
        idiom on an object-valued `x`). */
    function GetOr(default: T): (r: T)
      ensures Some? ==> r == value
      ensures None? ==> r == default
    {
      match this
      case Some(v) => v
      case None => default
    }
  }
}
